=== FILE: README.md ===
# Clinic appointments and sessions, modelled in Dafny

This project models the booking rules and validators of the Posta clinic front
end:

- **The appointment service** (`AppointmentService`):
  - the field validation, which collects every failing check and raises them as one error;
  - the doctor-availability query;
  - create, update and cancel as guarded writes to the `appointments` table;
  - the doctor-schedule and patient-list queries;
  - the statistics pass over the selected rows.
- **The front-end `Appointment` entity** and its factory.
- **The `User` entity** and its factory.
- **The `AppointmentController` workflows** over an appointment store.
- **The `AuthService` session**: a cached `currentUser` plus a key-value storage.
- **The `AuthController` form check, redirects and page guards.**
- **The `ValidationUtils` checks.**

Three status vocabularies appear and are kept apart:

- the service uses scheduled / completed / cancelled / no_show;
- the entity uses pendiente / confirmada / cancelada / completada;
- the controllers write 'pending' and 'cancelled'.

JavaScript values are the datatype `Js.Value`:

- `undefined`, `null`, booleans and integer numbers;
- strings;
- Date objects;
- plain objects.

Truthiness, `||`, property reads and `new Date(v)` are functions over `Value`. A thrown `Error` becomes `Err(message)` of a `Result`.

A Date holds a time value `Instants.Time`: milliseconds, or `Invalid` for NaN. TimeClip is applied. Every comparison with `Invalid` is false, as it is with NaN. Text is written in the form `toISOString` produces, one form of the Date Time String Format of ECMA-262, section 21.4.1.32. The model proves that this form round-trips. Text is read in that form and in the date-only form `YYYY-MM-DD`, which stands for midnight UTC.

The table behind the service is a sequence of rows. Each row is a positive, increasing primary key plus a map of columns. Queries follow SQL's NULL rules: NULL equals nothing, and NULL never lies within a range. `whereBetween` has inclusive bounds.

The clock (`new Date()`) is a parameter `now`, and so is `crypto.randomUUID()` (`freshId`). Redirects (`window.location.href = …`) are returned as target strings.

`Appointment.js`, `AppointmentController.js`, `AuthService.js` and `utils.js` each exist twice:

- under `src/assets/js/`;
- under `Posta_zip/Posta_zip/project/assets/js/`.

The two copies differ only in comments. One module models both copies, and the table below cites the `src/` copy. The same code sits in the second copy at these lines:

| file | members and lines in the second copy |
|---|---|
| `Appointment.js` | constructor 17-23, validate 30-41, toJSON 47-55, canCancel 61-64, factory 82-90 |
| `AppointmentController.js` | validateForm 11-22, createAppointment 24-40, list helpers 42-58, updateStatus 60-74, cancelAppointment 76-94 |
| `AuthService.js` | constructor 11-14, login 24-41, logout 46-49, getCurrentUser 55-63, isAuthenticated 69-71, hasRole 78-81 |
| `utils.js` | isEmail 16-18, isNotEmpty 25-27, validateLoginData 35-46 |

Two consequences of the availability query in `checkDoctorAvailability`:

- **Touching windows conflict.** The query uses `whereBetween`, whose bounds are inclusive. So an appointment ending at the very instant another starts conflicts with it (`DoctorAvailability.TouchingWindowsConflict`).
- **The overlap query is the closed-interval intersection** (`DoctorAvailability.OverlapIsClosedIntersection`).

## Model

| member | source | states |
|---|---|---|
| `Instants.IsoRoundTrip` | src/assets/js/models/Appointment.js:35 | Reading back the ISO text of any valid Date gives the same time value, for four-digit and signed six-digit years. |
| `Instants.FieldsRoundTrip` | src/assets/js/models/Appointment.js:35 | Splitting a time value into UTC calendar fields and recombining them gives the time value back. |
| `Instants.DigitsRoundTrip` | src/assets/js/models/Appointment.js:35 | Digits written with a fixed width read back as the number. |
| `Js.IsoTextReadsBack` | src/assets/js/models/Appointment.js:35 | `new Date(d.toISOString())` denotes the instant of `d`. |
| `Js.ToDateIdempotent` | src/assets/js/controllers/AppointmentController.js:34 | Wrapping a Date in `new Date` again changes nothing. |
| `Js.Or` | src/assets/js/services/AppointmentService.js:24 | `a \|\| b` is truthy iff either operand is; it is `a` when `a` is truthy, else `b`. |
| `Js.Includes` | src/assets/js/models/User.js:29 | `includes` answers only for a string, true iff the character occurs in it; any other receiver raises the TypeError. |
| `Js.Utf16Length` | src/assets/js/models/User.js:32 | A string's `length` counts UTF-16 code units: at least one and at most two per character. |
| `Js.BmpTextLength` | src/assets/js/models/User.js:32 | For text without characters above U+FFFF, `length` is the number of characters. |
| `Js.StringShorterThan` | src/assets/js/controllers/AuthController.js:14 | `s.length < k` holds iff the string has fewer than `k` code units; a string of at least `k` characters never passes it. |
| `Js.AstralCharCountsTwice` | src/assets/js/models/User.js:32 | A one-character name above U+FFFF has `length` 2, so it is not shorter than two. |
| `Js.ObjectLengthIsRead` | src/assets/js/models/User.js:32 | For a plain object, its own `length` property is compared. An object without one, or a number, is never shorter. |
| `Js.ToDate` | src/assets/js/models/Appointment.js:11 | `new Date(v)`: `undefined` and plain objects give an Invalid Date. A number gives that time value when it lies within the Date range, and an Invalid Date otherwise. |
| `Js.Length` | src/assets/js/models/User.js:32 | `.length` of a string is a number between its character count and twice that. A plain object without its own `length`, a boolean, a number and a Date give `undefined`. It requires a value other than `null` and `undefined`, on which JS raises a TypeError; every caller tests truthiness first. |
| `Js.ShorterThan` | src/assets/js/controllers/AuthController.js:14 | On a value other than `null` and `undefined`, `v.length < k` holds for a string iff it has fewer than `k` UTF-16 code units, and for a plain object iff its numeric `length` property is below `k`. It never holds when `length` is `undefined`. |
| `Instants.ToIsoString` | src/assets/js/models/Appointment.js:35 | `toISOString` writes 24 characters, or 27 for a six-digit year, with `T` before the time and a final `Z`. `Instants.IsoRoundTrip` reads the text back. |
| `Instants.ParseIso` | src/assets/js/models/Appointment.js:11 | Only two shapes of text read as a valid Date. One is the shape `toISOString` writes: 24 or 27 characters, with `T` before the time and a final `Z`. The other is a date-only text of 10 or 13 characters, with `-` before the month and before the day. |
| `Instants.DateOnlyIsUtcMidnight` | src/assets/js/services/AppointmentService.js:179-181 | `new Date("YYYY-MM-DD")` is the same instant as `new Date("YYYY-MM-DDT00:00:00.000Z")`, whether valid or not: date-only text is read as UTC. |
| `AppointmentTable.FindById` | src/assets/js/services/AppointmentService.js:224-228 | The lookup finds a row iff some row has that key, and what it finds is a row of the table with that key. |
| `AppointmentTable.Merge` | src/assets/js/services/AppointmentService.js:75-78 | After an update, every defined patch value except `id` overwrites its column, every other column keeps its value, and no other column appears. |
| `AppointmentTable.UpdateRows` | src/assets/js/services/AppointmentService.js:75-78 | The update keeps the row count and every key, merges the patch into the row with the given key, and leaves every other row as it was. |
| `AppointmentTable.UpdateThenFind` | src/assets/js/services/AppointmentService.js:75-80 | After an update, the keys stay increasing, and looking up the key returns the merged row, or nothing when the key was unknown. |
| `AppointmentTable.AppendFresh` | src/assets/js/services/AppointmentService.js:34-43 | Inserting under a key above every existing one keeps the keys positive and increasing. |
| `AppointmentTable.UpdateKeepsKeys` | src/assets/js/services/AppointmentService.js:75-78 | An update preserves the key invariant of the table. |
| `AppointmentValidation.RequiredMessageInjective` | src/assets/js/services/AppointmentService.js:95 | Different missing fields give different messages. |
| `AppointmentValidation.RemoveFirstUnderscoreAt` | src/assets/js/services/AppointmentService.js:94 | `replace('_', '')` removes exactly the first underscore. |
| `AppointmentValidation.RemoveFirstUnderscoreNone` | src/assets/js/services/AppointmentService.js:94 | A text with no underscore is unchanged. |
| `AppointmentValidation.PatientIdAlternative` | src/assets/js/services/AppointmentService.js:94 | The alternative key accepted for `patient_id` is `patientid`. |
| `AppointmentValidation.DoctorIdAlternative` | src/assets/js/services/AppointmentService.js:94 | The alternative key accepted for `doctor_id` is `doctorid`. |
| `AppointmentValidation.MissingFields` | src/assets/js/services/AppointmentService.js:92-98 | The missing-field messages are empty iff every required field is present. Each message names a missing field, and every missing field has its message. |
| `AppointmentValidation.MissingFieldsStep` | src/assets/js/services/AppointmentService.js:93-97 | One more field adds its message exactly when it is absent under both keys. |
| `AppointmentValidation.CollectMissing` | src/assets/js/services/AppointmentService.js:92-98 | The loop over the required fields collects exactly the missing-field messages, in field order. |
| `AppointmentValidation.StartErrors` | src/assets/js/services/AppointmentService.js:101-111 | A given start adds one message when it does not parse or lies before now, and none otherwise. |
| `AppointmentValidation.OrderErrors` | src/assets/js/services/AppointmentService.js:113-120 | When start and end are both given, an end not after the start adds the order message. An Invalid date compares false and adds nothing. |
| `AppointmentValidation.StatusErrors` | src/assets/js/services/AppointmentService.js:122-126 | A truthy status outside scheduled, completed, cancelled and no_show adds the status message. |
| `AppointmentValidation.ValidateAppointmentData` | src/assets/js/services/AppointmentService.js:87-131 | The step-by-step checks raise exactly the combined error of every failing check, in check order, and pass when none fails. |
| `AppointmentValidation.ValidationPassesIff` | src/assets/js/services/AppointmentService.js:87-131 | Validation passes iff every condition holds: on create, every required field is present; a given start parses and is not in the past; a given end is after a given start; a given status is a service status. Every failure message starts with the validation prefix. |
| `AppointmentValidation.CamelCaseKeyIsMissing` | src/assets/js/services/AppointmentService.js:93-96 | On create, `patientId` alone leaves `patient_id` missing, and validation fails naming that field. |
| `AppointmentValidation.UnderscorelessKeyIsPresent` | src/assets/js/services/AppointmentService.js:94 | `doctorid` counts as `doctor_id`. |
| `AppointmentValidation.UpdateSkipsRequiredFields` | src/assets/js/services/AppointmentService.js:92-98 | An empty patch passes on update and fails on create. |
| `AppointmentValidation.MessagesAreCollected` | src/assets/js/services/AppointmentService.js:108-129 | A past start together with an earlier end raises one error carrying both messages, joined by "; ", in check order. |
| `DoctorAvailability.NoConflict` | src/assets/js/services/AppointmentService.js:151-169 | The answer is true iff no row of the table conflicts with the window. |
| `DoctorAvailability.CheckDoctorAvailability` | src/assets/js/services/AppointmentService.js:141-170 | The check raises iff the start or end is an Invalid Date. Otherwise it answers true iff no row has that doctor, a non-cancelled status, an overlapping window and a key other than a truthy excluded id. |
| `DoctorAvailability.OverlapIsClosedIntersection` | src/assets/js/services/AppointmentService.js:154-161 | For well-formed windows, the three-way overlap test is exactly the intersection of two closed intervals. |
| `DoctorAvailability.TouchingWindowsConflict` | src/assets/js/services/AppointmentService.js:155-159 | An appointment of the same doctor that ends when the requested window starts makes the doctor unavailable. |
| `DoctorAvailability.NonCandidatesNeverConflict` | src/assets/js/services/AppointmentService.js:151-166 | None of these rows ever conflicts: a cancelled or NULL-status row, a row of another doctor, the excluded row, or a row without times. |
| `ScheduleQueries.InOrderTotalTransitive` | src/assets/js/services/AppointmentService.js:187 | The `start_time` order, with NULL placed first as assumed, is total and transitive in both directions. |
| `ScheduleQueries.Insert` | src/assets/js/services/AppointmentService.js:187 | Inserting into a sorted list keeps it sorted and adds exactly the one row. |
| `ScheduleQueries.Sort` | src/assets/js/services/AppointmentService.js:204 | The result is sorted on `start_time` and is a permutation of its input. |
| `ScheduleQueries.Filter` | src/assets/js/services/AppointmentService.js:183-186 | Every accepted row keeps its multiplicity, and no rejected row remains. |
| `ScheduleQueries.DoctorSchedule` | src/assets/js/services/AppointmentService.js:179-188 | The schedule is ascending by start. It holds exactly the doctor's non-cancelled rows starting within the two dates, bounds included, each as often as in the table. |
| `ScheduleQueries.PatientAppointments` | src/assets/js/services/AppointmentService.js:199-215 | The list is descending by start. It holds exactly the patient's rows passing the optional status and range filters, each as often as in the table. |
| `ScheduleQueries.OptionsAreOptional` | src/assets/js/services/AppointmentService.js:206-212 | A falsy status, or only one date bound, filters nothing beyond the patient. |
| `ScheduleQueries.FirstIsExtreme` | src/assets/js/services/AppointmentService.js:179-215 | The first row of a patient list starts no earlier than any other row in it; the first row of a schedule starts no later. |
| `ScheduleQueries.InvalidRangeGivesEmptySchedule` | src/assets/js/services/AppointmentService.js:179-188 | In the model, an unparseable bound gives an empty schedule. |
| `AppointmentStats.Tally` | src/assets/js/services/AppointmentService.js:295 | `counts[k] = (counts[k] \|\| 0) + 1` raises the count of `k` by one and leaves every other count unchanged. |
| `AppointmentStats.RoundedMean` | src/assets/js/services/AppointmentService.js:318 | The rounded mean in minutes is the integer within half a minute of the exact mean, with a half rounding upward. |
| `AppointmentStats.Visit` | src/assets/js/services/AppointmentService.js:293-311 | The callback's updates of the counters and the running total are one step of the specification pass. |
| `AppointmentStats.Accumulate` | src/assets/js/services/AppointmentService.js:287-312 | The `forEach` leaves the counters and total of the specification pass over all rows, in order. |
| `AppointmentStats.Tabulate` | src/assets/js/services/AppointmentService.js:278-320 | The statistics object is the specification's: the row count, the counts per status and per doctor, and the mean duration (0 for no rows). |
| `AppointmentStats.StatusCountOf` | src/assets/js/services/AppointmentService.js:295 | The count of a status is the number of rows with that status, and a status is a key iff some row has it. |
| `AppointmentStats.StatusCountsAreOccurrences` | src/assets/js/services/AppointmentService.js:279-295 | Every status count is its number of occurrences among the rows, so together the counts make up the total. |
| `AppointmentStats.DoctorCountOf` | src/assets/js/services/AppointmentService.js:302-304 | The count of a doctor is the number of rows with that doctor when the id is truthy, and 0 otherwise. |
| `AppointmentStats.DoctorCountsAreOccurrences` | src/assets/js/services/AppointmentService.js:302-304 | Only truthy doctor ids are keys, each counted by its occurrences. |
| `AppointmentStats.EmptySelection` | src/assets/js/services/AppointmentService.js:318 | With no rows, the total is 0, both count maps are empty and the mean is 0. |
| `AppointmentStats.TotalOfConstant` | src/assets/js/services/AppointmentService.js:307-311 | When every row lasts `d`, the total duration is `n * d`. |
| `AppointmentStats.MeanOfMultiple` | src/assets/js/services/AppointmentService.js:318 | Rounding the mean of `n` durations of `d` minutes gives `d`. |
| `AppointmentStats.MeanIsUnique` | src/assets/js/services/AppointmentService.js:318 | The rounding bounds determine a single integer. |
| `AppointmentStats.ConstantDurationAverage` | src/assets/js/services/AppointmentService.js:307-318 | When every selected appointment lasts `d` minutes, the mean duration is `d`. |
| `AppointmentStats.InvalidRowGivesNaN` | src/assets/js/services/AppointmentService.js:307-311 | One row with an Invalid start or end makes the total and the mean NaN. |
| `AppointmentServices.CreateCheck` | src/assets/js/services/AppointmentService.js:18-31 | Creation may proceed iff validation passes and the doctor is free over the window. A validation failure is raised as is. After validation, a busy doctor raises 'El médico no está disponible en el horario seleccionado', and an unreadable start or end raises the availability check's error. |
| `AppointmentServices.InsertedKeys` | src/assets/js/services/AppointmentService.js:34-43 | The insert writes exactly the eight created columns. |
| `AppointmentServices.InsertedColumns` | src/assets/js/services/AppointmentService.js:34-43 | The inserted columns hold: the given ids and times (`undefined` stored as NULL); status 'scheduled' and notes '' when none is given; both timestamps at now. |
| `AppointmentServices.Fill` | src/assets/js/services/AppointmentService.js:63-65 | A truthy patch value is used. Otherwise the current row's column is used, and with no current row the read raises the TypeError. |
| `AppointmentServices.UpdateCheck` | src/assets/js/services/AppointmentService.js:54-72 | A patch that touches neither doctor nor times is only validated. An update may proceed only if its validation passes, and a failed validation raises its own error. When a validated patch touches the schedule, each of doctor, start and end is taken from the patch when truthy and from the current row otherwise; a value missing from both raises the TypeError. The update then proceeds iff the doctor is free in that window with the row's own key excluded, a busy doctor raises the unavailability message, and an unreadable filled start or end raises the availability check's date error. |
| `AppointmentServices.UpdatePatch` | src/assets/js/services/AppointmentService.js:75-78 | The written patch is the given one plus `updated_at` at now. |
| `AppointmentServices.CancelCheck` | src/assets/js/services/AppointmentService.js:223-241 | Cancellation may proceed iff the row exists, is not cancelled and does not start strictly before now. An unknown key, a cancelled row and a row that has already started each give their own message. |
| `AppointmentServices.CancelPatch` | src/assets/js/services/AppointmentService.js:244-249 | A cancel writes exactly status 'cancelled', the reason (default ''), and both timestamps at now. |
| `AppointmentServices.AppointmentService.constructor` | src/assets/js/services/AppointmentService.js:9-11 | The service starts over an empty table whose next key is 1. |
| `AppointmentServices.AppointmentService.CreateAppointment` | src/assets/js/services/AppointmentService.js:18-46 | A failed guard inserts nothing and raises its message: the validation error, the busy-doctor message or the unreadable-window error, as `AppointmentServices.CreateCheck` states. Otherwise exactly one row is appended, under a fresh key, and returned. The key invariant is kept. |
| `AppointmentServices.AppointmentService.UpdateAppointment` | src/assets/js/services/AppointmentService.js:54-81 | A failed guard, including the availability re-check of a rescheduling patch (`UpdateCheck`), returns its message and writes nothing. Otherwise the row is merged with the patch and `updated_at`, and the lookup of its key is returned. The key invariant is kept. |
| `AppointmentServices.AppointmentService.CancelAppointment` | src/assets/js/services/AppointmentService.js:223-250 | A failed guard writes nothing. Otherwise the row gets the cancel columns, and the updated row is returned. |
| `AppointmentServices.AppointmentService.GetAppointmentStats` | src/assets/js/services/AppointmentService.js:260-321 | The statistics are those of the rows the options select, and the total is their number. |
| `AppointmentServices.CreateDefaults` | src/assets/js/services/AppointmentService.js:39-42 | Without status and notes, a new row is 'scheduled' with empty notes, and is created and updated at the same instant. |
| `AppointmentServices.ValidatedWindow` | src/assets/js/services/AppointmentService.js:104-120 | A validated window with a valid end has a valid start, and its end comes after its start. |
| `AppointmentServices.InsertedRowConflicts` | src/assets/js/services/AppointmentService.js:34-43 | An inserted, non-cancelled row conflicts with every window of its doctor that meets its own. |
| `AppointmentServices.SecondBookingRefused` | src/assets/js/services/AppointmentService.js:18-45 | Once a booking is created, a second booking for the same doctor whose window meets it, even at one instant, is refused. When the second booking passes validation, it is refused with the busy-doctor message. |
| `AppointmentServices.PlainUpdateSkipsAvailability` | src/assets/js/services/AppointmentService.js:59 | Without a truthy `doctor_id`, `start_time` or `end_time`, an update is only validated; camelCase keys do not trigger the availability check. |
| `AppointmentServices.UpdateExcludesItself` | src/assets/js/services/AppointmentService.js:54-72 | The appointment being rescheduled never blocks itself: if no row with another key conflicts with the requested window, the update check passes. |
| `AppointmentServices.RescheduleOntoBookedSlotRefused` | src/assets/js/services/AppointmentService.js:54-72 | Moving an appointment onto a window that meets a live appointment of the same doctor under another key is refused. |
| `AppointmentServices.UpdateOfUnknownRow` | src/assets/js/services/AppointmentService.js:60-65 | A rescheduling patch for an unknown key that leaves out the doctor raises the TypeError of reading the missing row. |
| `AppointmentServices.CancelTwiceFails` | src/assets/js/services/AppointmentService.js:231-233 | After a successful cancel, cancelling the same key again fails as already cancelled, at any later instant. |
| `AppointmentServices.CancelAtStartInstant` | src/assets/js/services/AppointmentService.js:239 | An appointment starting exactly now can still be cancelled, because the comparison is strict. |
| `AppointmentModel.Construct` | src/assets/js/models/Appointment.js:7-13 | The constructor stores id, patient, doctor and status unchanged, and the date as `new Date(date)`. |
| `AppointmentModel.Validate` | src/assets/js/models/Appointment.js:16-27 | Validation passes iff both ids are truthy, the date is valid and the status is one of the four Spanish statuses. The first failing check raises its message. |
| `AppointmentModel.CanCancel` | src/assets/js/models/Appointment.js:41-44 | `canCancel()` holds iff the status is pendiente or confirmada and the date is valid and strictly later than now. |
| `AppointmentModel.CanCancelExcludes` | src/assets/js/models/Appointment.js:41-44 | These are never cancellable: a cancelada or completada appointment, one due exactly now, or one with an Invalid date. A cancellable appointment with both ids validates. |
| `AppointmentModel.ToJson` | src/assets/js/models/Appointment.js:30-38 | The JSON holds exactly id, patientId, doctorId, the ISO date and status; the date text reads back as the same instant. An Invalid date raises the RangeError. |
| `AppointmentModel.Create` | src/assets/js/models/Appointment.js:51-59 | The factory keeps a truthy id, else uses the fresh one. A falsy status becomes 'pendiente'. Every other field is passed on. |
| `AppointmentModel.FactoryDefaultValidates` | src/assets/js/models/Appointment.js:51-59 | A factory-built appointment with truthy ids, a valid date and no status validates, as 'pendiente'. |
| `AppointmentModel.JsonRoundTrip` | src/assets/js/models/Appointment.js:30-59 | The factory applied to an appointment's JSON gives that appointment back. |
| `UserModel.Validate` | src/assets/js/models/User.js:28-39 | Validation passes iff the e-mail is a string with '@', the name is truthy and its `length` is not below two, and the role is admin, medico or paciente. Each failure raises its message, in check order. A non-string e-mail raises the TypeError. A string's `length` counts UTF-16 code units, and a plain object's own `length` property is compared instead (`Js.ShorterThan`). |
| `UserModel.ToJson` | src/assets/js/models/User.js:45-52 | The JSON holds exactly id, gmail, nombre and role. |
| `UserModel.CreateUser` | src/assets/js/models/User.js:69-76 | The factory keeps a truthy id, else uses the fresh one. A falsy role becomes 'paciente'. |
| `UserModel.DefaultRoleIsValid` | src/assets/js/models/User.js:74 | The default role passes the role check. |
| `UserModel.FactoryPatientValidates` | src/assets/js/models/User.js:69-76 | A factory-built user with a valid e-mail and name and no role validates, as a patient. |
| `UserModel.JsonRoundTrip` | src/assets/js/models/User.js:45-76 | The factory applied to a user's JSON gives that user back. |
| `AppointmentControllers.Lookup` | src/assets/js/controllers/AppointmentController.js:69-72 | `find` returns a record iff the store holds one with that id, and what it returns has that id. |
| `AppointmentControllers.Upsert` | src/assets/js/controllers/AppointmentController.js:38 | After `save`, looking up the saved id gives the saved record and every other lookup is unchanged. The store grows by one only for a new id. |
| `AppointmentControllers.OfParty` | src/assets/js/controllers/AppointmentController.js:47-64 | `findByPatient` and `findByDoctor` return exactly the stored records of that patient, or of that doctor. |
| `AppointmentControllers.ValidateForm` | src/assets/js/controllers/AppointmentController.js:14-25 | The form passes iff patientId, doctorId and date are all truthy; the first missing one raises its message. |
| `AppointmentControllers.FormAppointment` | src/assets/js/controllers/AppointmentController.js:31-36 | The created appointment has the fresh id, the form's ids and date, and the explicit status 'pending'. |
| `AppointmentControllers.FormAppointmentFailsEntityValidation` | src/assets/js/controllers/AppointmentController.js:35 | The entity's own validation refuses every appointment the form creates, with the status message when its date is valid. canCancel refuses it at every instant. |
| `AppointmentControllers.WithStatus` | src/assets/js/controllers/AppointmentController.js:74 | Only the status changes, to the given value, unchecked. |
| `AppointmentControllers.CancelDecision` | src/assets/js/controllers/AppointmentController.js:86-95 | An unknown record raises 'Cita no encontrada', a record canCancel refuses raises the cancel message, and otherwise the record becomes 'cancelled'. |
| `AppointmentControllers.CancelTwiceFails` | src/assets/js/controllers/AppointmentController.js:95 | A record the controller cancelled is refused by the next cancel, at any instant. |
| `AppointmentControllers.AppointmentStore.Find` | src/assets/js/controllers/AppointmentController.js:69 | The store answers with the lookup, or raises when its queries fail. |
| `AppointmentControllers.AppointmentStore.Save` | src/assets/js/controllers/AppointmentController.js:38 | The store upserts the record and returns it, or, when its saves fail, raises and keeps its records. Whether queries fail is a separate flag, so `save` can raise after `find` answered. |
| `AppointmentControllers.AppointmentStore.FindByPatient` | src/assets/js/controllers/AppointmentController.js:49 | The store answers with the patient's records, or raises. |
| `AppointmentControllers.AppointmentStore.FindByDoctor` | src/assets/js/controllers/AppointmentController.js:59 | The store answers with the doctor's records, or raises. |
| `AppointmentControllers.AppointmentController.CreateAppointment` | src/assets/js/controllers/AppointmentController.js:28-44 | Nothing is saved unless the form passes. Then the 'pending' appointment is saved and returned, and store errors are raised again. |
| `AppointmentControllers.AppointmentController.GetPatientAppointments` | src/assets/js/controllers/AppointmentController.js:47-54 | The patient's records are returned, or [] when the store raises. |
| `AppointmentControllers.AppointmentController.GetDoctorAppointments` | src/assets/js/controllers/AppointmentController.js:57-64 | The doctor's records are returned, or [] when the store raises. |
| `AppointmentControllers.AppointmentController.UpdateStatus` | src/assets/js/controllers/AppointmentController.js:67-81 | An unknown id raises 'Cita no encontrada' and saves nothing. Otherwise only the status is overwritten and the record is saved and returned. If `save` raises after `find` answered, its error is raised again and the store keeps its records. |
| `AppointmentControllers.AppointmentController.CancelAppointment` | src/assets/js/controllers/AppointmentController.js:84-102 | The call follows the cancel decision on the stored record: it saves the cancelled record, or raises and saves nothing. If `save` raises after a positive decision, its error is raised again and the store keeps its records. |
| `AppointmentControllers.CancelTwice` | src/assets/js/controllers/AppointmentController.js:84-102 | After a successful cancel, a second cancel of the same id raises and saves nothing more. |
| `AuthServices.Authenticate` | src/assets/js/services/AuthService.js:16-30 | Exactly two (role, e-mail, password) triples authenticate, as the admin user and as the medico user. |
| `AuthServices.AuthenticatedAccounts` | src/assets/js/services/AuthService.js:16-28 | An authenticated user is admin with id 1 or medico with id 2, and its role is the requested one. |
| `AuthServices.Session` | src/assets/js/services/AuthService.js:40-48 | The current user is the cached one, else the one stored under 'currentUser', else none. |
| `AuthServices.AuthService.constructor` | src/assets/js/services/AuthService.js:8-11 | A new service uses the given storage and has nothing cached. |
| `AuthServices.AuthService.Login` | src/assets/js/services/AuthService.js:14-31 | A known triple writes the user to storage under 'currentUser', caches it and returns it. Otherwise the login raises 'Credenciales inválidas' and changes neither storage nor cache. |
| `AuthServices.AuthService.Logout` | src/assets/js/services/AuthService.js:34-37 | Logout removes 'currentUser' from storage and clears the cache. |
| `AuthServices.AuthService.GetCurrentUser` | src/assets/js/services/AuthService.js:40-48 | The call returns the session user, and caches it after reading it from storage. |
| `AuthServices.AuthService.IsAuthenticated` | src/assets/js/services/AuthService.js:51-53 | True iff a session user exists. |
| `AuthServices.AuthService.HasRole` | src/assets/js/services/AuthService.js:56-59 | True iff a session user exists with that role. |
| `AuthServices.ReloadAfterLogin` | src/assets/js/services/AuthService.js:18-45 | After a successful login, a fresh service over the same storage reports the same user. |
| `AuthServices.LogoutEndsSession` | src/assets/js/services/AuthService.js:34-53 | After logout nobody is authenticated. |
| `AuthServices.StaleCacheAfterForeignLogout` | src/assets/js/services/AuthService.js:40-48 | A user already cached survives a logout by another service over the same storage. |
| `AuthControllers.ValidateForm` | src/assets/js/controllers/AuthController.js:10-21 | The form passes iff the e-mail is a string with '@', the password is truthy and not shorter than six UTF-16 code units, and the role is truthy. The checks fail in order with their own messages: e-mail, then password, then role. A truthy e-mail that is not a string raises the TypeError of a missing `includes`. |
| `AuthControllers.RedirectTarget` | src/assets/js/controllers/AuthController.js:29-38 | admin goes to the admin dashboard and medico to the medico dashboard; every other role is 'Rol no soportado'. |
| `AuthControllers.LoginOutcomeOf` | src/assets/js/controllers/AuthController.js:23-42 | A form error is handled without calling the service, and credentials that do not authenticate are handled as invalid credentials. Login redirects iff the form passes and the credentials authenticate, and then to the dashboard of the authenticated user's role. |
| `AuthControllers.WellFormedFormPasses` | src/assets/js/controllers/AuthController.js:10-21 | A string e-mail with '@', a password of six or more characters and a non-empty role pass the form. |
| `AuthControllers.AccountsPassFormCheck` | src/assets/js/controllers/AuthController.js:10-21 | Both hard-coded accounts pass the form check. |
| `AuthControllers.AuthController.constructor` | src/assets/js/controllers/AuthController.js:6-8 | The controller is built over the given service. |
| `AuthControllers.AuthController.Login` | src/assets/js/controllers/AuthController.js:23-42 | The outcome is the specified one. A redirect leaves the authenticated user cached and stored; a handled error changes no session state. |
| `AuthControllers.AuthController.Logout` | src/assets/js/controllers/AuthController.js:44-47 | The session ends, and the browser goes to the public index. |
| `AuthControllers.AuthController.CheckAuth` | src/assets/js/controllers/AuthController.js:49-56 | True iff a session user exists; otherwise the browser goes to the login page. |
| `AuthControllers.AuthController.CheckRole` | src/assets/js/controllers/AuthController.js:58-65 | True iff a session user exists whose role is allowed; otherwise the browser goes to the public index. |
| `ValidationUtils.IsEmail` | src/assets/js/utils/utils.js:7-9 | True iff the value is a string in which `\S+@\S+\.\S+` matches somewhere; then the string holds both '@' and '.'. |
| `ValidationUtils.ComposedEmailAccepted` | src/assets/js/utils/utils.js:8 | Any text containing `x@y.z` for non-blank words x, y and z is accepted. |
| `ValidationUtils.SampleEmails` | src/assets/js/utils/utils.js:8 | 'a@b.c' is accepted; 'a@b' and a number are not. |
| `Js.LeadingSpace` | src/assets/js/utils/utils.js:13 | Counts the white space a text starts with: all of it is white space, and the next character is not. |
| `Js.TrailingSpace` | src/assets/js/utils/utils.js:13 | Counts the white space a text ends with: all of it is white space, and the character before it is not. |
| `Js.Trim` | src/assets/js/utils/utils.js:13 | `trim()` is empty iff the text is all white space. Otherwise it is the slice after the leading white space, with only white space cut from the end, and it neither starts nor ends with white space. |
| `ValidationUtils.IsNotEmpty` | src/assets/js/utils/utils.js:12-14 | The check is false for null and undefined; a string passes iff it holds a non-space character. |
| `ValidationUtils.ValidateLoginData` | src/assets/js/utils/utils.js:17-28 | The data passes iff it is a truthy object with a valid e-mail and a non-empty password. Otherwise the first failing check raises its message. |
| `ValidationUtils.AcceptedLoginData` | src/assets/js/utils/utils.js:17-28 | Accepted login data is a plain object whose e-mail is a string holding '@' and '.'. |

## Left out

- BaseService (`db`, `findById`, `update`) and the table schema are not part of this model. The model assumes:
  - the table is a sequence of rows with increasing integer keys;
  - `insert` appends under the next key;
  - `update` overwrites the columns named in the patch, except that it skips the `id` key and every `undefined` value;
  - `undefined` is stored as NULL;
  - column names are not checked;
  - SQL value coercion beyond reading a column as a date is not modelled.
- `AppointmentServices.AppointmentService.CancelAppointment`: returns the updated row. What BaseService's `update` returns is not visible, so the model returns the merged row.
- `AppointmentServices.AppointmentService.CreateAppointment`: returns the inserted row. The code's `findById(appointmentId)` returns it too, in the assumed BaseService.
- The knex driver's refusal of an `undefined` binding is not modelled. A `where` on an `undefined` value matches no row here.
- `ScheduleQueries.InvalidRangeGivesEmptySchedule`: `getDoctorSchedule` and `getPatientAppointments` pass `new Date(x)` to `whereBetween` unchecked. The model treats an Invalid Date bound as matching no row, but the driver may raise instead. The same choice sits inside `ScheduleQueries.DoctorSchedule` and `ScheduleQueries.PatientAppointments`.
- `Instants.ParseIso` (and through it `Js.ToDate`) reads only two forms of the Date Time String Format of ECMA-262, section 21.4.1.32: the form `toISOString` writes, and the date-only `YYYY-MM-DD`. ECMAScript specifies the other forms too, but the model does not, and reads them as an Invalid Date:
  - the year-only and year-month forms;
  - date-time forms without seconds or without milliseconds;
  - forms with an explicit offset such as `+02:00`;
  - the hour 24 for the end of a day.
- `Instants.ParseIso`: a date-time form without an offset is read in local time, which would need a time zone the model does not have. Text outside the format is implementation-specific. The model reads both as an Invalid Date.
- `Js.Length`: requires a value other than `null` and `undefined`, and so does `Js.ShorterThan`. The TypeError that JS raises there is not modelled, because every `length` test in the code (User.js and AuthController.js) tests truthiness first.
- `new Date()` and `crypto.randomUUID()` are the parameters `now` and `freshId`.
- `AppointmentStats.Tabulate`: counts and sums exactly, not in floating point, and drops `byDay`:
  - the total duration is kept in whole milliseconds, and the mean is rounded from the exact quotient;
  - NaN is `None`;
  - `byDay` is not modelled, because it depends on locale weekday names from `toLocaleDateString`.
- `AppointmentStats.Tabulate`: keys `byStatus` and `byDoctor` by the column value, not by its string form. Two values with the same string form (the number 1 and the text "1") are counted apart.
- `ScheduleQueries.Sort`: fixes one order for rows with equal `start_time` (table order). SQL leaves ties unordered.
- `ScheduleQueries.Sort`: puts rows whose `start_time` is NULL or unreadable first in ascending order (last in descending order). Where `orderBy` puts NULLs is the database's choice, not the code's; PostgreSQL, for one, puts them last in ascending order.
- `Js.ShorterThan`: reads text compared with a number (an object whose `length` property is text) as a number only when it is blank or a decimal integer with an optional sign. Text holding a fraction, an exponent, a hexadecimal number or an infinity is read as NaN.
- `AppointmentControllers.AppointmentStore`: stands for the store the controllers call through `find`, `save`, `findByPatient` and `findByDoctor`. Its implementation is not part of this model:
  - it is an in-memory list in which `save` replaces a record by id;
  - one flag stands for a store whose queries raise, and another for a store whose `save` raises.
- `AppointmentControllers.AppointmentController.UpdateStatus`: treats the record `find` returns as a value. The code writes `appointment.status` in place, on an object the store may share. If `save` then raises, the model's store keeps the old status, while a store sharing the object would already show the new one.
- `AppointmentControllers.AppointmentController.CancelAppointment`: treats the record `find` returns as a value, as `UpdateStatus` does. The in-place write of 'cancelled' on a shared object, before a `save` that raises, is not modelled.
- `Controller.handleError` (alerts and console output), the DOM, `UIUtils`, and the login page glue are not modelled.
- JSON serialisation in `AuthService` is not modelled: storage holds the user record itself.
- async calls are sequential; nothing runs concurrently.
- Numbers are integers; fractional numbers and NaN values as inputs are not modelled.

=== FILE: appointment_controller.dfy ===
/**
 * `AppointmentController` (the same code in both copies of the project):
 * the booking form check and the create, status-update and cancel
 * workflows, over an appointment store. The controllers write the English
 * statuses 'pending' and 'cancelled'.
 */
module AppointmentControllers {
  import opened Instants
  import opened Js
  import opened AppointmentModel

  const PatientRequired := "Paciente es requerido"
  const DoctorRequired := "Doctor es requerido"
  const DateRequired := "Fecha es requerida"
  const NotFound := "Cita no encontrada"
  const NotCancellable := "Esta cita no puede ser cancelada"
  const StoreDown := "El almacén de citas no responde"

  /** The first record with the given id. */
  function Lookup(records: seq<Appointment>, id: Value): (r: Option<Appointment>)
    ensures r.Some? <==> exists i | 0 <= i < |records| :: records[i].id == id
    ensures r.Some? ==> r.value in records && r.value.id == id
  {
    if records == [] then None
    else if records[0].id == id then Some(records[0])
    else Lookup(records[1..], id)
  }

  /** `save`: replaces the first record with the same id, in place, or appends. */
  function Upsert(records: seq<Appointment>, a: Appointment): (r: seq<Appointment>)
    ensures Lookup(r, a.id) == Some(a)
    ensures forall id | id != a.id :: Lookup(r, id) == Lookup(records, id)
    ensures |r| == if Lookup(records, a.id).Some? then |records| else |records| + 1
  {
    if records == [] then [a]
    else if records[0].id == a.id then [a] + records[1..]
    else [records[0]] + Upsert(records[1..], a)
  }

  /** The two parties of an appointment the store can be queried by. */
  datatype Party = Patient | Doctor

  function PartyOf(a: Appointment, p: Party): Value {
    match p
    case Patient => a.patientId
    case Doctor => a.doctorId
  }

  /** The records of one patient or one doctor, in store order. */
  function OfParty(records: seq<Appointment>, p: Party, id: Value): (r: seq<Appointment>)
    ensures forall a | a in r :: a in records && PartyOf(a, p) == id
    ensures forall a | a in records && PartyOf(a, p) == id :: a in r
  {
    if records == [] then []
    else (if PartyOf(records[0], p) == id then [records[0]] else []) + OfParty(records[1..], p, id)
  }

  /**
   * The appointment store the controllers call through `find`, `save`,
   * `findByPatient` and `findByDoctor`. Its implementation is not part of
   * this model: it is an in-memory list. `readsFail` stands for a store
   * whose queries raise, and `savesFail` for one whose `save` raises; the
   * two are independent, so `find` may answer and `save` then raise.
   */
  class AppointmentStore {
    var records: seq<Appointment>
    var readsFail: bool
    var savesFail: bool

    constructor(records: seq<Appointment>, readsFail: bool, savesFail: bool)
      ensures this.records == records && this.readsFail == readsFail && this.savesFail == savesFail
    {
      this.records := records;
      this.readsFail := readsFail;
      this.savesFail := savesFail;
    }

    method Find(id: Value) returns (r: Result<Option<Appointment>>)
      ensures r == if readsFail then Err(StoreDown) else Ok(Lookup(records, id))
    {
      if readsFail {
        return Err(StoreDown);
      }
      r := Ok(Lookup(records, id));
    }

    method Save(a: Appointment) returns (r: Result<Appointment>)
      modifies this
      ensures readsFail == old(readsFail) && savesFail == old(savesFail)
      ensures savesFail ==> r == Err(StoreDown) && records == old(records)
      ensures !savesFail ==> r == Ok(a) && records == Upsert(old(records), a)
    {
      if savesFail {
        return Err(StoreDown);
      }
      records := Upsert(records, a);
      r := Ok(a);
    }

    method FindByPatient(patientId: Value) returns (r: Result<seq<Appointment>>)
      ensures r == if readsFail then Err(StoreDown) else Ok(OfParty(records, Patient, patientId))
    {
      if readsFail {
        return Err(StoreDown);
      }
      r := Ok(OfParty(records, Patient, patientId));
    }

    method FindByDoctor(doctorId: Value) returns (r: Result<seq<Appointment>>)
      ensures r == if readsFail then Err(StoreDown) else Ok(OfParty(records, Doctor, doctorId))
    {
      if readsFail {
        return Err(StoreDown);
      }
      r := Ok(OfParty(records, Doctor, doctorId));
    }
  }

  /**
   * `validateForm(formData)`: a truthy patientId, then doctorId, then date;
   * the first missing one raises.
   */
  function ValidateForm(form: map<string, Value>): (r: Result<bool>)
    ensures r.Ok? <==> Truthy(Prop(form, "patientId")) && Truthy(Prop(form, "doctorId")) && Truthy(Prop(form, "date"))
    ensures r.Ok? ==> r.value
    ensures !Truthy(Prop(form, "patientId")) ==> r == Err(PatientRequired)
    ensures Truthy(Prop(form, "patientId")) && !Truthy(Prop(form, "doctorId")) ==> r == Err(DoctorRequired)
    ensures (Truthy(Prop(form, "patientId")) && Truthy(Prop(form, "doctorId")) && !Truthy(Prop(form, "date")))
            ==> r == Err(DateRequired)
  {
    if !Truthy(Prop(form, "patientId")) then Err(PatientRequired)
    else if !Truthy(Prop(form, "doctorId")) then Err(DoctorRequired)
    else if !Truthy(Prop(form, "date")) then Err(DateRequired)
    else Ok(true)
  }

  /**
   * The appointment `createAppointment` builds from a form: through the
   * factory, with the fresh id, the date converted and the explicit status
   * 'pending' (so the factory's 'pendiente' default never applies).
   */
  function FormAppointment(form: map<string, Value>, freshId: string): (a: Appointment)
    ensures a.id == Str(freshId) && a.status == Str("pending")
    ensures a.patientId == Prop(form, "patientId") && a.doctorId == Prop(form, "doctorId")
    ensures a.date == ToDate(Prop(form, "date"))
  {
    Create(map["patientId" := Prop(form, "patientId"), "doctorId" := Prop(form, "doctorId"),
               "date" := DateObj(ToDate(Prop(form, "date"))), "status" := Str("pending")], freshId)
  }

  /**
   * The entity's own check refuses every appointment the form creates, and
   * canCancel refuses it at every instant: 'pending' is not one of its
   * statuses. With a valid date the refusal is the status message.
   */
  lemma FormAppointmentFailsEntityValidation(form: map<string, Value>, freshId: string, now: int)
    requires ValidateForm(form).Ok?
    ensures Validate(FormAppointment(form, freshId)).Err?
    ensures ToDate(Prop(form, "date")).At? ==> Validate(FormAppointment(form, freshId)) == Err(BadStatus)
    ensures !CanCancel(FormAppointment(form, freshId), now)
  {
  }

  /** `updateStatus` on a found record: the status replaced by any value, unchecked, and nothing else. */
  function WithStatus(a: Appointment, newStatus: Value): (b: Appointment)
    ensures b.status == newStatus
    ensures b.id == a.id && b.patientId == a.patientId && b.doctorId == a.doctorId && b.date == a.date
  {
    a.(status := newStatus)
  }

  /** What `cancelAppointment` decides about the record `find` returned, at instant `now`. */
  function CancelDecision(found: Option<Appointment>, now: int): (r: Result<Appointment>)
    ensures found.None? ==> r == Err(NotFound)
    ensures found.Some? && !CanCancel(found.value, now) ==> r == Err(NotCancellable)
    ensures r.Ok? <==> found.Some? && CanCancel(found.value, now)
    ensures r.Ok? ==> r.value == WithStatus(found.value, Str("cancelled"))
  {
    match found
    case None => Err(NotFound)
    case Some(a) => if !CanCancel(a, now) then Err(NotCancellable) else Ok(WithStatus(a, Str("cancelled")))
  }

  /**
   * A cancelled appointment cannot be cancelled again, at any instant:
   * 'cancelled' is outside the statuses canCancel accepts.
   */
  lemma {:induction false} CancelTwiceFails(found: Option<Appointment>, now: int, later: int)
    requires CancelDecision(found, now).Ok?
    ensures CancelDecision(Some(CancelDecision(found, now).value), later) == Err(NotCancellable)
  {
    var c := CancelDecision(found, now).value;
    assert c.status == Str("cancelled");
    assert c.status !in CancellableStatuses;
  }

  class AppointmentController {
    const store: AppointmentStore

    constructor(store: AppointmentStore)
      ensures this.store == store
    {
      this.store := store;
    }

    /**
     * `createAppointment(formData)`: nothing is saved unless the form passes;
     * then the factory-built appointment is saved and returned. Errors are
     * handled and raised again.
     */
    method CreateAppointment(form: map<string, Value>, freshId: string) returns (r: Result<Appointment>)
      modifies store
      ensures store.readsFail == old(store.readsFail) && store.savesFail == old(store.savesFail)
      ensures ValidateForm(form).Err? ==> r == Err(ValidateForm(form).message) && store.records == old(store.records)
      ensures ValidateForm(form).Ok? && store.savesFail ==> r == Err(StoreDown) && store.records == old(store.records)
      ensures ValidateForm(form).Ok? && !store.savesFail
              ==> r == Ok(FormAppointment(form, freshId))
                  && store.records == Upsert(old(store.records), FormAppointment(form, freshId))
    {
      var check := ValidateForm(form);
      if check.Err? {
        return Err(check.message);
      }
      var appointment := FormAppointment(form, freshId);
      var saved := store.Save(appointment);
      if saved.Err? {
        return Err(saved.message);
      }
      r := Ok(appointment);
    }

    /** `getPatientAppointments(patientId)`: the store's answer, or [] when the store raises. */
    method GetPatientAppointments(patientId: Value) returns (list: seq<Appointment>)
      ensures list == if store.readsFail then [] else OfParty(store.records, Patient, patientId)
    {
      var found := store.FindByPatient(patientId);
      if found.Err? {
        return [];
      }
      list := found.value;
    }

    /** `getDoctorAppointments(doctorId)`: the store's answer, or [] when the store raises. */
    method GetDoctorAppointments(doctorId: Value) returns (list: seq<Appointment>)
      ensures list == if store.readsFail then [] else OfParty(store.records, Doctor, doctorId)
    {
      var found := store.FindByDoctor(doctorId);
      if found.Err? {
        return [];
      }
      list := found.value;
    }

    /**
     * `updateStatus(appointmentId, newStatus)`: an unknown id raises without
     * saving; otherwise the status is overwritten, unchecked, and saved, and
     * an error of `save` is raised again.
     */
    method UpdateStatus(id: Value, newStatus: Value) returns (r: Result<Appointment>)
      modifies store
      ensures store.readsFail == old(store.readsFail) && store.savesFail == old(store.savesFail)
      ensures store.readsFail ==> r == Err(StoreDown) && store.records == old(store.records)
      ensures !store.readsFail && Lookup(old(store.records), id).None?
              ==> r == Err(NotFound) && store.records == old(store.records)
      ensures !store.readsFail && Lookup(old(store.records), id).Some? && store.savesFail
              ==> r == Err(StoreDown) && store.records == old(store.records)
      ensures !store.readsFail && Lookup(old(store.records), id).Some? && !store.savesFail
              ==> var a := WithStatus(Lookup(old(store.records), id).value, newStatus);
                  r == Ok(a) && store.records == Upsert(old(store.records), a)
    {
      var found := store.Find(id);
      if found.Err? {
        return Err(found.message);
      }
      if found.value.None? {
        return Err(NotFound);
      }
      var appointment := WithStatus(found.value.value, newStatus);
      var saved := store.Save(appointment);
      if saved.Err? {
        return Err(saved.message);
      }
      r := Ok(appointment);
    }

    /**
     * `cancelAppointment(appointmentId)` at instant `now`: an unknown id or
     * an appointment canCancel refuses raises without saving; otherwise the
     * status becomes 'cancelled' and is saved, and an error of `save` is
     * raised again.
     */
    method CancelAppointment(id: Value, now: int) returns (r: Result<Appointment>)
      modifies store
      ensures store.readsFail == old(store.readsFail) && store.savesFail == old(store.savesFail)
      ensures store.readsFail ==> r == Err(StoreDown)
      ensures !store.readsFail && CancelDecision(Lookup(old(store.records), id), now).Err?
              ==> r == CancelDecision(Lookup(old(store.records), id), now)
      ensures !store.readsFail && CancelDecision(Lookup(old(store.records), id), now).Ok?
              ==> r == if store.savesFail then Err(StoreDown) else CancelDecision(Lookup(old(store.records), id), now)
      ensures r.Ok? ==> store.records == Upsert(old(store.records), r.value)
      ensures r.Err? ==> store.records == old(store.records)
    {
      var found := store.Find(id);
      if found.Err? {
        return Err(found.message);
      }
      var decision := CancelDecision(found.value, now);
      if decision.Err? {
        return decision;
      }
      var saved := store.Save(decision.value);
      if saved.Err? {
        return Err(saved.message);
      }
      r := Ok(decision.value);
    }
  }

  /** Cancelling the same appointment twice: the second call always raises and saves nothing. */
  method CancelTwice(controller: AppointmentController, id: Value, now: int, later: int)
    returns (first: Result<Appointment>, second: Result<Appointment>)
    modifies controller.store
    ensures first.Ok? ==> second == Err(NotCancellable) && controller.store.records == Upsert(old(controller.store.records), first.value)
  {
    first := controller.CancelAppointment(id, now);
    second := controller.CancelAppointment(id, later);
    if first.Ok? {
      CancelTwiceFails(Lookup(old(controller.store.records), id), now, later);
    }
  }
}

=== FILE: appointment_model.dfy ===
/**
 * The `Appointment` entity of the front end and `AppointmentFactory`
 * (the same code in both copies of the project). Its status vocabulary is
 * Spanish: pendiente, confirmada, cancelada, completada.
 */
module AppointmentModel {
  import opened Instants
  import opened Js

  /**
   * An appointment as the constructor leaves it: the four fields as given,
   * and `date` converted by `new Date(date)`.
   */
  datatype Appointment = Appointment(id: Value, patientId: Value, doctorId: Value, date: DateTime, status: Value)

  const Statuses: seq<Value> := [Str("pendiente"), Str("confirmada"), Str("cancelada"), Str("completada")]
  const CancellableStatuses: seq<Value> := [Str("pendiente"), Str("confirmada")]

  const MissingIds := "Se requiere ID del paciente y del médico"
  const BadDate := "Fecha inválida"
  const BadStatus := "Estado inválido (debe ser pendiente, confirmada, cancelada o completada)"

  /** The keys of the serialised form. */
  const JsonKeys: set<string> := {"id", "patientId", "doctorId", "date", "status"}

  /** `new Appointment(id, patientId, doctorId, date, status)`. */
  function Construct(id: Value, patientId: Value, doctorId: Value, date: Value, status: Value): (a: Appointment)
    ensures a.id == id && a.patientId == patientId && a.doctorId == doctorId && a.status == status
    ensures a.date == ToDate(date)
  {
    Appointment(id, patientId, doctorId, ToDate(date), status)
  }

  /**
   * `validate()`: both ids truthy, then a valid date, then a status of the
   * entity's vocabulary; the first failing check raises.
   */
  function Validate(a: Appointment): (r: Result<bool>)
    ensures r.Ok? <==> Truthy(a.patientId) && Truthy(a.doctorId) && a.date.At? && a.status in Statuses
    ensures r.Ok? ==> r.value
    ensures !(Truthy(a.patientId) && Truthy(a.doctorId)) ==> r == Err(MissingIds)
    ensures (Truthy(a.patientId) && Truthy(a.doctorId) && a.date.Invalid?) ==> r == Err(BadDate)
    ensures (Truthy(a.patientId) && Truthy(a.doctorId) && a.date.At? && a.status !in Statuses)
            ==> r == Err(BadStatus)
  {
    if !Truthy(a.patientId) || !Truthy(a.doctorId) then Err(MissingIds)
    else if a.date.Invalid? then Err(BadDate)
    else if a.status !in Statuses then Err(BadStatus)
    else Ok(true)
  }

  /**
   * `canCancel()` at the instant `now` (the `new Date()` it reads): the
   * status is pendiente or confirmada and the date is strictly later.
   */
  predicate CanCancel(a: Appointment, now: int): (b: bool)
    ensures b <==> (a.status == Str("pendiente") || a.status == Str("confirmada")) && a.date.At? && now < a.date.ms
  {
    a.status in CancellableStatuses && Before(At(now), a.date)
  }

  /** Cancelled and completed appointments, and one due right now, never qualify. */
  lemma CanCancelExcludes(a: Appointment, now: int)
    ensures a.status == Str("cancelada") || a.status == Str("completada") ==> !CanCancel(a, now)
    ensures a.date == At(now) ==> !CanCancel(a, now)
    ensures a.date.Invalid? ==> !CanCancel(a, now)
    ensures CanCancel(a, now) ==> Validate(a).Ok? || !(Truthy(a.patientId) && Truthy(a.doctorId))
  {
  }

  /**
   * `toJSON()`: `id` (from the entity base), `patientId`, `doctorId`, the
   * date as its ISO text and `status`, and no other key. `toISOString`
   * raises a RangeError on an Invalid Date, and so does `toJSON`.
   */
  function ToJson(a: Appointment): (r: Result<map<string, Value>>)
    ensures r.Ok? <==> a.date.At?
    ensures r.Ok? ==> r.value.Keys == JsonKeys
    ensures r.Ok? ==> r.value["id"] == a.id && r.value["patientId"] == a.patientId
                      && r.value["doctorId"] == a.doctorId && r.value["status"] == a.status
    ensures r.Ok? ==> r.value["date"].Str? && ToDate(r.value["date"]) == a.date
  {
    match a.date
    case Invalid => Err("RangeError: Invalid time value")
    case At(t) =>
      IsoTextReadsBack(t);
      var date := Str(ToIsoString(t));
      Ok(map["id" := a.id, "patientId" := a.patientId, "doctorId" := a.doctorId,
             "date" := date, "status" := a.status])
  }

  /**
   * `AppointmentFactory.createAppointment(data)`: a truthy `data.id` is
   * kept, otherwise the fresh identifier (`crypto.randomUUID()`, supplied by
   * the caller); a falsy status becomes 'pendiente'.
   */
  function Create(data: map<string, Value>, freshId: string): (a: Appointment)
    ensures a.id == (if Truthy(Prop(data, "id")) then Prop(data, "id") else Str(freshId))
    ensures a.status == (if Truthy(Prop(data, "status")) then Prop(data, "status") else Str("pendiente"))
    ensures a.patientId == Prop(data, "patientId") && a.doctorId == Prop(data, "doctorId")
    ensures a.date == ToDate(Prop(data, "date"))
  {
    Construct(Or(Prop(data, "id"), Str(freshId)), Prop(data, "patientId"), Prop(data, "doctorId"),
              Prop(data, "date"), Or(Prop(data, "status"), Str("pendiente")))
  }

  /** A factory-built appointment with truthy ids, a valid date and no status validates, as pending. */
  lemma FactoryDefaultValidates(data: map<string, Value>, freshId: string)
    requires Truthy(Prop(data, "patientId")) && Truthy(Prop(data, "doctorId"))
    requires ToDate(Prop(data, "date")).At?
    requires !Truthy(Prop(data, "status"))
    ensures Validate(Create(data, freshId)) == Ok(true)
    ensures Create(data, freshId).status == Str("pendiente")
  {
  }

  /**
   * Building an appointment from its own JSON gives it back, when its id
   * and status are truthy: the ISO date text reads back as the same instant.
   */
  lemma JsonRoundTrip(a: Appointment, freshId: string)
    requires Truthy(a.id) && Truthy(a.status) && a.date.At?
    ensures ToJson(a).Ok? && Create(ToJson(a).value, freshId) == a
  {
  }
}

=== FILE: appointment_service.dfy ===
/**
 * `AppointmentService`: create, update and cancel as guarded writes to the
 * `appointments` table, and the statistics query. The table is the
 * service's `rows`; `nextId` is the key the next insert receives.
 */
module AppointmentServices {
  import opened Instants
  import opened Js
  import opened AppointmentTable
  import opened AppointmentValidation
  import opened DoctorAvailability
  import opened ScheduleQueries
  import opened AppointmentStats

  const Unavailable := "El médico no está disponible en el horario seleccionado"
  const NotFound := "Cita no encontrada"
  const AlreadyCancelled := "La cita ya está cancelada"
  const AlreadyPast := "No se puede cancelar una cita que ya ha pasado"

  /** An instant `new Date()` can report. */
  predicate IsInstant(now: int) {
    -MaxTime <= now <= MaxTime
  }

  /** `data.doctor_id || data.doctorId`. */
  function DoctorOf(data: map<string, Value>): Value {
    Or(Prop(data, "doctor_id"), Prop(data, "doctorId"))
  }

  /** `data.patient_id || data.patientId`. */
  function PatientOf(data: map<string, Value>): Value {
    Or(Prop(data, "patient_id"), Prop(data, "patientId"))
  }

  /** The guards of `createAppointment`: validation, then the availability of the doctor. */
  function CreateCheck(rows: seq<Row>, data: map<string, Value>, now: int): (r: Result<bool>)
    ensures r.Ok? <==> Validation(data, false, now).Ok?
                       && CheckDoctorAvailability(rows, DoctorOf(data), StartOf(data), EndOf(data), Null) == Ok(true)
    ensures Validation(data, false, now).Err? ==> r == Validation(data, false, now)
    ensures Validation(data, false, now).Ok? ==>
              var free := CheckDoctorAvailability(rows, DoctorOf(data), StartOf(data), EndOf(data), Null);
              (free == Ok(false) ==> r == Err(Unavailable)) && (free.Err? ==> r == free)
  {
    match Validation(data, false, now)
    case Err(e) => Err(e)
    case Ok(_) =>
      match CheckDoctorAvailability(rows, DoctorOf(data), StartOf(data), EndOf(data), Null)
      case Err(e) => Err(e)
      case Ok(free) => if free then Ok(true) else Err(Unavailable)
  }

  /** The columns an insert writes. */
  const CreatedColumns: set<string> :=
    {"patient_id", "doctor_id", "start_time", "end_time", "status", "notes", "created_at", "updated_at"}

  /** The columns a cancel writes. */
  const CancelColumns: set<string> := {"status", "cancellation_reason", "cancelled_at", "updated_at"}

  /** The columns `createAppointment` inserts. */
  function NewColumns(data: map<string, Value>, now: int): map<string, Value>
    requires IsInstant(now)
  {
    map["patient_id" := Stored(PatientOf(data)), "doctor_id" := Stored(DoctorOf(data)),
        "start_time" := Stored(StartOf(data)), "end_time" := Stored(EndOf(data)),
        "status" := Or(Prop(data, "status"), Str("scheduled")), "notes" := Or(Prop(data, "notes"), Str("")),
        "created_at" := DateObj(At(now)), "updated_at" := DateObj(At(now))]
  }

  /** An inserted row has exactly the created columns. */
  lemma InsertedKeys(data: map<string, Value>, now: int)
    requires IsInstant(now)
    ensures NewColumns(data, now).Keys == CreatedColumns
  {
  }

  /**
   * The values of an inserted row: the given ids and times under their
   * column names (`undefined` stored as NULL), status 'scheduled' and notes
   * '' when none is given, and both timestamps at `now`.
   */
  lemma InsertedColumns(data: map<string, Value>, now: int)
    requires IsInstant(now)
    ensures var cols := NewColumns(data, now);
            && cols.Keys == CreatedColumns
            && cols["status"] == (if Truthy(Prop(data, "status")) then Prop(data, "status") else Str("scheduled"))
            && cols["notes"] == (if Truthy(Prop(data, "notes")) then Prop(data, "notes") else Str(""))
            && cols["created_at"] == DateObj(At(now)) && cols["updated_at"] == DateObj(At(now))
            && cols["doctor_id"] == Stored(DoctorOf(data)) && cols["patient_id"] == Stored(PatientOf(data))
            && cols["start_time"] == Stored(StartOf(data)) && cols["end_time"] == Stored(EndOf(data))
  {
    InsertedKeys(data, now);
  }

  /**
   * `updateData.key || currentAppointment.key` in `updateAppointment`: the
   * current row is read only when the patch has no truthy value, and
   * reading it when there is no row raises a TypeError.
   */
  function Fill(patch: map<string, Value>, current: Option<Row>, key: string): (r: Result<Value>)
    ensures Truthy(Prop(patch, key)) ==> r == Ok(Prop(patch, key))
    ensures !Truthy(Prop(patch, key)) ==> r == if current.Some? then Ok(Field(current.value, key)) else Err(ReadOfUndefined)
  {
    if Truthy(Prop(patch, key)) then Ok(Prop(patch, key))
    else if current.None? then Err(ReadOfUndefined)
    else Ok(Field(current.value, key))
  }

  /** Whether `updateAppointment` re-checks availability: a truthy doctor_id, start_time or end_time. */
  predicate TouchesSchedule(patch: map<string, Value>) {
    Truthy(Prop(patch, "doctor_id")) || Truthy(Prop(patch, "start_time")) || Truthy(Prop(patch, "end_time"))
  }

  /**
   * The guards of `updateAppointment(id, patch)`: validation without the
   * required fields, then, when the patch touches the schedule, the
   * availability of the resulting window with the row itself excluded.
   */
  function UpdateCheck(rows: seq<Row>, id: int, patch: map<string, Value>, now: int): (r: Result<bool>)
    ensures !TouchesSchedule(patch) ==> r == Validation(patch, true, now)
    ensures r.Ok? ==> Validation(patch, true, now).Ok? && r.value
    ensures Validation(patch, true, now).Err? ==> r == Validation(patch, true, now)
    ensures Validation(patch, true, now).Ok? && TouchesSchedule(patch) ==>
              var current := FindById(rows, id);
              var doctor, start, end :=
                Fill(patch, current, "doctor_id"), Fill(patch, current, "start_time"), Fill(patch, current, "end_time");
              if doctor.Err? || start.Err? || end.Err? then r == Err(ReadOfUndefined)
              else
                var free := CheckDoctorAvailability(rows, doctor.value, start.value, end.value, Num(id));
                (r.Ok? <==> free == Ok(true)) && (free == Ok(false) ==> r == Err(Unavailable))
                && (free.Err? ==> r == free)
  {
    match Validation(patch, true, now)
    case Err(e) => Err(e)
    case Ok(_) =>
      if !TouchesSchedule(patch) then Ok(true)
      else
        var current := FindById(rows, id);
        match (Fill(patch, current, "doctor_id"), Fill(patch, current, "start_time"), Fill(patch, current, "end_time"))
        case (Ok(doctor), Ok(start), Ok(end)) =>
          (match CheckDoctorAvailability(rows, doctor, start, end, Num(id))
           case Err(e) => Err(e)
           case Ok(free) => if free then Ok(true) else Err(Unavailable))
        case _ => Err(ReadOfUndefined)
  }

  /** The patch `updateAppointment` writes: the given one with `updated_at` at `now`. */
  function UpdatePatch(patch: map<string, Value>, now: int): (p: map<string, Value>)
    requires IsInstant(now)
    ensures p.Keys == patch.Keys + {"updated_at"} && p["updated_at"] == DateObj(At(now))
    ensures forall k | k in patch && k != "updated_at" :: p[k] == patch[k]
  {
    patch["updated_at" := DateObj(At(now))]
  }

  /** `appointment.start_time || appointment.startTime` as `new Date` reads it. */
  function StartInstant(r: Row): Time {
    ToDate(Or(Field(r, "start_time"), Field(r, "startTime")))
  }

  /**
   * The guards of `cancelAppointment(id)` at `now`: the row exists, is not
   * already cancelled, and does not start strictly before now (an Invalid
   * start compares false and lets the cancel through).
   */
  function CancelCheck(rows: seq<Row>, id: int, now: int): (r: Result<Row>)
    ensures FindById(rows, id).None? ==> r == Err(NotFound)
    ensures r.Ok? <==> var a := FindById(rows, id);
                       a.Some? && Field(a.value, "status") != Str("cancelled") && !Before(StartInstant(a.value), At(now))
    ensures r.Ok? ==> r == Ok(FindById(rows, id).value)
    ensures FindById(rows, id).Some? && Field(FindById(rows, id).value, "status") == Str("cancelled")
            ==> r == Err(AlreadyCancelled)
    ensures FindById(rows, id).Some? && Field(FindById(rows, id).value, "status") != Str("cancelled")
            && Before(StartInstant(FindById(rows, id).value), At(now))
            ==> r == Err(AlreadyPast)
  {
    match FindById(rows, id)
    case None => Err(NotFound)
    case Some(a) =>
      if Field(a, "status") == Str("cancelled") then Err(AlreadyCancelled)
      else if Before(StartInstant(a), At(now)) then Err(AlreadyPast)
      else Ok(a)
  }

  /** The patch a cancel writes; the reason defaults to '' when none is passed. */
  function CancelPatch(reason: Value, now: int): (p: map<string, Value>)
    requires IsInstant(now)
    ensures p.Keys == CancelColumns
    ensures p["status"] == Str("cancelled")
    ensures p["cancellation_reason"] == if reason.Undefined? then Str("") else reason
    ensures p["cancelled_at"] == DateObj(At(now)) && p["updated_at"] == DateObj(At(now))
  {
    map["status" := Str("cancelled"), "cancellation_reason" := (if reason.Undefined? then Str("") else reason),
        "cancelled_at" := DateObj(At(now)), "updated_at" := DateObj(At(now))]
  }

  class AppointmentService {
    var rows: seq<Row>
    var nextId: int

    /** Keys are positive, increasing, and below the next one to hand out. */
    predicate Valid()
      reads this
    {
      nextId >= 1 && KeysIncreasing(rows) && KeysBelow(rows, nextId)
    }

    /** `new AppointmentService()` over an empty table. */
    constructor()
      ensures Valid() && rows == [] && nextId == 1
    {
      rows := [];
      nextId := 1;
    }

    /**
     * `createAppointment(data)` at `now`: when validation or availability
     * fails nothing is inserted; otherwise exactly one row is appended,
     * under a fresh key, and returned.
     */
    method CreateAppointment(data: map<string, Value>, now: int) returns (r: Result<Row>)
      requires Valid() && IsInstant(now)
      modifies this
      ensures Valid()
      ensures CreateCheck(old(rows), data, now).Err?
              ==> r == Err(CreateCheck(old(rows), data, now).message) && rows == old(rows) && nextId == old(nextId)
      ensures CreateCheck(old(rows), data, now).Ok?
              ==> r == Ok(Row(old(nextId), NewColumns(data, now)))
                  && rows == old(rows) + [r.value] && nextId == old(nextId) + 1
    {
      var valid := ValidateAppointmentData(data, false, now);
      if valid.Err? {
        return Err(valid.message);
      }
      var available := CheckDoctorAvailability(rows, DoctorOf(data), StartOf(data), EndOf(data), Null);
      if available.Err? {
        return Err(available.message);
      }
      if !available.value {
        return Err(Unavailable);
      }
      var row := Row(nextId, NewColumns(data, now));
      AppendFresh(rows, row);
      rows := rows + [row];
      nextId := nextId + 1;
      r := Ok(row);
    }

    /**
     * `updateAppointment(id, patch)` at `now`: when a guard fails nothing is
     * written; otherwise the row is merged with the patch and `updated_at`,
     * and `findById(id)` is returned (none for an unknown key).
     */
    method UpdateAppointment(id: int, patch: map<string, Value>, now: int) returns (r: Result<Option<Row>>)
      requires Valid() && IsInstant(now)
      modifies this
      ensures Valid() && nextId == old(nextId)
      ensures UpdateCheck(old(rows), id, patch, now).Err?
              ==> r == Err(UpdateCheck(old(rows), id, patch, now).message) && rows == old(rows)
      ensures UpdateCheck(old(rows), id, patch, now).Ok?
              ==> rows == UpdateRows(old(rows), id, UpdatePatch(patch, now)) && r == Ok(FindById(rows, id))
    {
      var valid := ValidateAppointmentData(patch, true, now);
      if valid.Err? {
        return Err(valid.message);
      }
      if TouchesSchedule(patch) {
        var current := FindById(rows, id);
        var doctor := Fill(patch, current, "doctor_id");
        var start := Fill(patch, current, "start_time");
        var end := Fill(patch, current, "end_time");
        if doctor.Err? || start.Err? || end.Err? {
          return Err(ReadOfUndefined);
        }
        var available := CheckDoctorAvailability(rows, doctor.value, start.value, end.value, Num(id));
        if available.Err? {
          return Err(available.message);
        }
        if !available.value {
          return Err(Unavailable);
        }
      }
      UpdateKeepsKeys(rows, id, UpdatePatch(patch, now), nextId);
      rows := UpdateRows(rows, id, UpdatePatch(patch, now));
      r := Ok(FindById(rows, id));
    }

    /**
     * `cancelAppointment(id, reason)` at `now`: when a guard fails nothing
     * is written; otherwise the row gets status 'cancelled', the reason and
     * both timestamps, and the updated row is returned.
     */
    method CancelAppointment(id: int, reason: Value, now: int) returns (r: Result<Row>)
      requires Valid() && IsInstant(now)
      modifies this
      ensures Valid() && nextId == old(nextId)
      ensures CancelCheck(old(rows), id, now).Err?
              ==> r == Err(CancelCheck(old(rows), id, now).message) && rows == old(rows)
      ensures CancelCheck(old(rows), id, now).Ok?
              ==> rows == UpdateRows(old(rows), id, CancelPatch(reason, now))
                  && r == Ok(Row(id, Merge(CancelCheck(old(rows), id, now).value.cols, CancelPatch(reason, now))))
    {
      var check := CancelCheck(rows, id, now);
      if check.Err? {
        return Err(check.message);
      }
      var patch := CancelPatch(reason, now);
      UpdateKeepsKeys(rows, id, patch, nextId);
      rows := UpdateRows(rows, id, patch);
      r := Ok(Row(id, Merge(check.value.cols, patch)));
    }

    /** `getAppointmentStats(options)`: the statistics of the rows the options select. */
    method GetAppointmentStats(options: map<string, Value>) returns (stats: Stats)
      ensures stats == StatsOf(Filter(rows, x => Selected(x, options)))
      ensures stats.total == |Filter(rows, x => Selected(x, options))|
    {
      var appointments := Filter(rows, x => Selected(x, options));
      stats := Tabulate(appointments);
    }
  }

  /** A row `createAppointment` inserts has its defaults: status 'scheduled' and notes '' when none are given. */
  lemma CreateDefaults(data: map<string, Value>, now: int)
    requires IsInstant(now)
    requires !Truthy(Prop(data, "status")) && !Truthy(Prop(data, "notes"))
    ensures NewColumns(data, now)["status"] == Str("scheduled")
    ensures NewColumns(data, now)["notes"] == Str("")
    ensures NewColumns(data, now)["created_at"] == NewColumns(data, now)["updated_at"]
  {
    InsertedColumns(data, now);
  }

  /**
   * A window that passes validation and has a valid end is well-formed: the
   * start is valid too and the end comes after it. (An Invalid end passes
   * validation, since `end <= start` is false; the availability check
   * refuses it.)
   */
  lemma ValidatedWindow(data: map<string, Value>, isUpdate: bool, now: int)
    requires Validation(data, isUpdate, now).Ok?
    requires Truthy(StartOf(data)) && Truthy(EndOf(data)) && ToDate(EndOf(data)).At?
    ensures ToDate(StartOf(data)).At?
    ensures ToDate(StartOf(data)).ms < ToDate(EndOf(data)).ms
  {
    ValidationPassesIff(data, isUpdate, now);
  }

  /** An inserted row conflicts with every window of its doctor that meets its own. */
  lemma InsertedRowConflicts(data: map<string, Value>, now: int, id: int, doctorId: Value, start: int, end: int)
    requires IsInstant(now)
    requires Truthy(StartOf(data)) && Truthy(EndOf(data)) && DoctorOf(data) == doctorId && Truthy(doctorId)
    requires Prop(data, "status") != Str("cancelled")
    requires var s, e := ToDate(StartOf(data)), ToDate(EndOf(data));
             s.At? && e.At? && s.ms <= e.ms && start <= end && s.ms <= end && start <= e.ms
    ensures Conflicts(Row(id, NewColumns(data, now)), doctorId, start, end, Null)
  {
    InsertedColumns(data, now);
    var row := Row(id, NewColumns(data, now));
    var s, e := ToDate(StartOf(data)), ToDate(EndOf(data));
    assert SqlTime(Col(row, "start_time")) == s && SqlTime(Col(row, "end_time")) == e;
    OverlapIsClosedIntersection(s.ms, e.ms, start, end);
  }

  /**
   * No double booking: once an appointment is created, a second request for
   * the same doctor whose window meets it, even at a single instant, is
   * refused.
   */
  lemma SecondBookingRefused(rows: seq<Row>, data: map<string, Value>, other: map<string, Value>, id: int, now: int)
    requires IsInstant(now)
    requires CreateCheck(rows, data, now).Ok?
    requires Truthy(DoctorOf(data)) && Truthy(StartOf(data)) && Truthy(EndOf(data))
    requires Prop(data, "status") != Str("cancelled")
    requires DoctorOf(other) == DoctorOf(data) && Truthy(StartOf(other)) && Truthy(EndOf(other))
    requires var s, e := ToDate(StartOf(data)), ToDate(EndOf(data));
             var s2, e2 := ToDate(StartOf(other)), ToDate(EndOf(other));
             s2.At? && e2.At? && s.ms <= e2.ms && s2.ms <= e.ms
    ensures CreateCheck(rows + [Row(id, NewColumns(data, now))], other, now).Err?
    ensures Validation(other, false, now).Ok? ==>
              CreateCheck(rows + [Row(id, NewColumns(data, now))], other, now) == Err(Unavailable)
  {
    var after := rows + [Row(id, NewColumns(data, now))];
    assert ToDate(EndOf(data)).At?;
    ValidatedWindow(data, false, now);
    if Validation(other, false, now).Ok? {
      ValidatedWindow(other, false, now);
      var s2, e2 := ToDate(StartOf(other)), ToDate(EndOf(other));
      InsertedRowConflicts(data, now, id, DoctorOf(other), s2.ms, e2.ms);
      assert after[|rows|] == Row(id, NewColumns(data, now));
      assert !NoConflict(after, DoctorOf(other), s2.ms, e2.ms, Null);
    }
  }

  /** An update that touches neither doctor, start nor end is only validated; camelCase keys do not count. */
  lemma PlainUpdateSkipsAvailability(rows: seq<Row>, id: int, patch: map<string, Value>, now: int)
    requires !Truthy(Prop(patch, "doctor_id")) && !Truthy(Prop(patch, "start_time")) && !Truthy(Prop(patch, "end_time"))
    ensures UpdateCheck(rows, id, patch, now) == Validation(patch, true, now)
  {
  }

  /**
   * The appointment being rescheduled never blocks itself: when no other row
   * conflicts with the window the update asks for, the update passes.
   */
  lemma UpdateExcludesItself(rows: seq<Row>, id: int, patch: map<string, Value>, now: int,
                             doctor: Value, start: Value, end: Value)
    requires id != 0
    requires Validation(patch, true, now).Ok? && TouchesSchedule(patch)
    requires var current := FindById(rows, id);
             Fill(patch, current, "doctor_id") == Ok(doctor) && Fill(patch, current, "start_time") == Ok(start)
             && Fill(patch, current, "end_time") == Ok(end)
    requires ToDate(start).At? && ToDate(end).At?
    requires forall i | 0 <= i < |rows| && rows[i].id != id ::
               !Conflicts(rows[i], doctor, ToDate(start).ms, ToDate(end).ms, Null)
    ensures UpdateCheck(rows, id, patch, now) == Ok(true)
  {
    OnlyOthersBlock(rows, id, doctor, start, end);
  }

  /** With its own key excluded, only rows under other keys can make the doctor unavailable. */
  lemma OnlyOthersBlock(rows: seq<Row>, id: int, doctor: Value, start: Value, end: Value)
    requires id != 0
    requires ToDate(start).At? && ToDate(end).At?
    requires forall i | 0 <= i < |rows| && rows[i].id != id ::
               !Conflicts(rows[i], doctor, ToDate(start).ms, ToDate(end).ms, Null)
    ensures CheckDoctorAvailability(rows, doctor, start, end, Num(id)) == Ok(true)
  {
    forall i | 0 <= i < |rows|
      ensures !Conflicts(rows[i], doctor, ToDate(start).ms, ToDate(end).ms, Num(id))
    {
      if rows[i].id != id {
        assert !Conflicts(rows[i], doctor, ToDate(start).ms, ToDate(end).ms, Null);
      }
    }
  }

  /**
   * No double booking on update: moving an appointment onto a window that
   * meets a live appointment of another key with the same doctor is refused.
   */
  lemma RescheduleOntoBookedSlotRefused(rows: seq<Row>, id: int, patch: map<string, Value>, now: int, j: int)
    requires 0 <= j < |rows| && rows[j].id != id
    requires Truthy(Prop(patch, "doctor_id")) && Truthy(Prop(patch, "start_time")) && Truthy(Prop(patch, "end_time"))
    requires SqlEq(Col(rows[j], "doctor_id"), Prop(patch, "doctor_id")) && NotCancelled(rows[j])
    requires var s, e := SqlTime(Col(rows[j], "start_time")), SqlTime(Col(rows[j], "end_time"));
             var s2, e2 := ToDate(Prop(patch, "start_time")), ToDate(Prop(patch, "end_time"));
             s.At? && e.At? && s2.At? && e2.At? && s.ms <= e.ms && s.ms <= e2.ms && s2.ms <= e.ms
    ensures UpdateCheck(rows, id, patch, now).Err?
  {
    if Validation(patch, true, now).Ok? {
      ValidatedWindow(patch, true, now);
      var s, e := SqlTime(Col(rows[j], "start_time")), SqlTime(Col(rows[j], "end_time"));
      var s2, e2 := ToDate(Prop(patch, "start_time")), ToDate(Prop(patch, "end_time"));
      OverlapIsClosedIntersection(s.ms, e.ms, s2.ms, e2.ms);
      assert Conflicts(rows[j], Prop(patch, "doctor_id"), s2.ms, e2.ms, Num(id));
    }
  }

  /**
   * A rescheduling patch for an unknown key that leaves out a value raises
   * the TypeError of reading the missing row.
   */
  lemma UpdateOfUnknownRow(rows: seq<Row>, id: int, patch: map<string, Value>, now: int)
    requires FindById(rows, id).None?
    requires Validation(patch, true, now).Ok?
    requires Truthy(Prop(patch, "start_time")) && !Truthy(Prop(patch, "doctor_id"))
    ensures UpdateCheck(rows, id, patch, now) == Err(ReadOfUndefined)
  {
  }

  /** After a successful cancel, cancelling the same appointment again fails, at any later instant. */
  lemma CancelTwiceFails(rows: seq<Row>, id: int, reason: Value, now: int, later: int)
    requires KeysIncreasing(rows) && IsInstant(now)
    requires CancelCheck(rows, id, now).Ok?
    ensures CancelCheck(UpdateRows(rows, id, CancelPatch(reason, now)), id, later) == Err(AlreadyCancelled)
  {
    UpdateThenFind(rows, id, CancelPatch(reason, now));
  }

  /** An appointment due exactly now can still be cancelled; the comparison is strict. */
  lemma CancelAtStartInstant(rows: seq<Row>, id: int, now: int)
    requires FindById(rows, id).Some?
    requires Field(FindById(rows, id).value, "status") != Str("cancelled")
    requires StartInstant(FindById(rows, id).value) == At(now)
    ensures CancelCheck(rows, id, now).Ok?
  {
  }
}

=== FILE: appointment_stats.dfy ===
/**
 * `AppointmentService.getAppointmentStats(options)`: the rows matching the
 * optional date range and doctor, counted per status and per doctor, with
 * their mean duration in minutes.
 */
module AppointmentStats {
  import opened Instants
  import opened Js
  import opened AppointmentTable
  import opened ScheduleQueries

  /**
   * The statistics. `byStatus` and `byDoctor` are keyed by the column value
   * itself; `averageDuration` is None for NaN.
   */
  datatype Stats = Stats(total: nat, byStatus: map<Value, nat>, byDoctor: map<Value, nat>, averageDuration: Option<int>)

  /** A row the statistics consider: in the range when both bounds are truthy, of the doctor when one is truthy. */
  predicate Selected(r: Row, options: map<string, Value>) {
    var startDate := Prop(options, "startDate");
    var endDate := Prop(options, "endDate");
    var doctorId := Prop(options, "doctorId");
    (!(Truthy(startDate) && Truthy(endDate)) || Between(Key(r), ToDate(startDate), ToDate(endDate)))
    && (!Truthy(doctorId) || SqlEq(Col(r, "doctor_id"), doctorId))
  }

  /** `counts[k] || 0`. */
  function CountOf(counts: map<Value, nat>, k: Value): nat {
    if k in counts then counts[k] else 0
  }

  /** `counts[k] = (counts[k] || 0) + 1`. */
  function Tally(counts: map<Value, nat>, k: Value): (r: map<Value, nat>)
    ensures r.Keys == counts.Keys + {k}
    ensures CountOf(r, k) == CountOf(counts, k) + 1
    ensures forall j | j != k :: CountOf(r, j) == CountOf(counts, j)
  {
    counts[k := CountOf(counts, k) + 1]
  }

  /** `end - start` for one row, in milliseconds; None when either Date is Invalid. */
  function DurationOf(r: Row): Option<int> {
    var start := ToDate(Field(r, "start_time"));
    var end := ToDate(Field(r, "end_time"));
    if start.At? && end.At? then Some(end.ms - start.ms) else None
  }

  /**
   * The state of the pass: the per-status and per-doctor counts and
   * `totalDuration`, kept in milliseconds (`getAppointmentStats` adds minutes,
   * `(end - start) / (1000 * 60)`, so its total is this one divided by
   * 60000); NaN (None) absorbs every later addition.
   */
  datatype Tallies = Tallies(byStatus: map<Value, nat>, byDoctor: map<Value, nat>, totalMs: Option<int>)

  /** One row visited: its status tallied, its doctor tallied when truthy, its duration added. */
  function Visited(t: Tallies, r: Row): Tallies {
    var doctor := Field(r, "doctor_id");
    var d := DurationOf(r);
    Tallies(Tally(t.byStatus, Field(r, "status")),
            if Truthy(doctor) then Tally(t.byDoctor, doctor) else t.byDoctor,
            if t.totalMs.Some? && d.Some? then Some(t.totalMs.value + d.value) else None)
  }

  /** The state after visiting `rows` in order. */
  function Tallied(rows: seq<Row>): Tallies {
    if rows == [] then Tallies(map[], map[], Some(0))
    else Visited(Tallied(rows[..|rows| - 1]), rows[|rows| - 1])
  }

  /** The per-status counts after visiting `rows` in order. */
  function StatusCounts(rows: seq<Row>): map<Value, nat> {
    Tallied(rows).byStatus
  }

  /** The per-doctor counts after visiting `rows` in order: rows without a truthy doctor are skipped. */
  function DoctorCounts(rows: seq<Row>): map<Value, nat> {
    Tallied(rows).byDoctor
  }

  /** `totalDuration` after visiting `rows` in order. */
  function TotalDuration(rows: seq<Row>): Option<int> {
    Tallied(rows).totalMs
  }

  const MsPerMinute := 60000

  /**
   * `Math.round(totalDuration / total)`: the integer nearest to the mean in
   * minutes, a half rounded upward. In whole units: 2q - 1 <= 2 * mean < 2q + 1.
   */
  function RoundedMean(totalMs: int, n: int): (q: int)
    requires n > 0
    ensures (2 * q - 1) * (MsPerMinute * n) <= 2 * totalMs < (2 * q + 1) * (MsPerMinute * n)
  {
    var u := MsPerMinute * n;
    var q := (2 * totalMs + u) / (2 * u);
    assert q * (2 * u) <= 2 * totalMs + u < q * (2 * u) + 2 * u;
    q
  }

  /** The statistics of the selected rows. */
  function StatsOf(rows: seq<Row>): Stats {
    var total := TotalDuration(rows);
    Stats(|rows|, StatusCounts(rows), DoctorCounts(rows),
          if |rows| > 0 then (if total.Some? then Some(RoundedMean(total.value, |rows|)) else None) else Some(0))
  }

  /** The callback of the `forEach`: one row updates the counters and the running total. */
  method Visit(appointment: Row, statusCount: map<Value, nat>, doctorCount: map<Value, nat>, totalDuration: Option<int>)
    returns (statusCount': map<Value, nat>, doctorCount': map<Value, nat>, totalDuration': Option<int>)
    ensures Tallies(statusCount', doctorCount', totalDuration')
            == Visited(Tallies(statusCount, doctorCount, totalDuration), appointment)
  {
    var status := Field(appointment, "status");
    statusCount' := statusCount[status := CountOf(statusCount, status) + 1];
    var doctor := Field(appointment, "doctor_id");
    doctorCount' := doctorCount;
    if Truthy(doctor) {
      doctorCount' := doctorCount[doctor := CountOf(doctorCount, doctor) + 1];
    }
    var start := ToDate(Field(appointment, "start_time"));
    var end := ToDate(Field(appointment, "end_time"));
    if totalDuration.Some? && start.At? && end.At? {
      totalDuration' := Some(totalDuration.value + (end.ms - start.ms));
    } else {
      totalDuration' := None;
    }
  }

  /** The `forEach` of `getAppointmentStats`: one pass over the rows, in order. */
  method Accumulate(appointments: seq<Row>) returns (statusCount: map<Value, nat>, doctorCount: map<Value, nat>,
                                                    totalDuration: Option<int>)
    ensures Tallies(statusCount, doctorCount, totalDuration) == Tallied(appointments)
  {
    statusCount := map[];
    doctorCount := map[];
    totalDuration := Some(0);
    for i := 0 to |appointments|
      invariant Tallies(statusCount, doctorCount, totalDuration) == Tallied(appointments[..i])
    {
      assert appointments[..i + 1][..i] == appointments[..i];
      statusCount, doctorCount, totalDuration := Visit(appointments[i], statusCount, doctorCount, totalDuration);
    }
    assert appointments[..|appointments|] == appointments;
  }

  /** The statistics `getAppointmentStats` returns: the pass over the rows, then the mean of the durations. */
  method Tabulate(appointments: seq<Row>) returns (stats: Stats)
    ensures stats == StatsOf(appointments)
  {
    var statusCount, doctorCount, totalDuration := Accumulate(appointments);
    var total := |appointments|;
    var average: Option<int> := Some(0);
    if total > 0 {
      average := if totalDuration.Some? then Some(RoundedMean(totalDuration.value, total)) else None;
    }
    stats := Stats(total, statusCount, doctorCount, average);
  }

  /** The values of one column of the rows, in order. */
  function ColumnOf(rows: seq<Row>, key: string): (s: seq<Value>)
    ensures |s| == |rows| && forall i | 0 <= i < |rows| :: s[i] == Field(rows[i], key)
  {
    seq(|rows|, i requires 0 <= i < |rows| => Field(rows[i], key))
  }

  /** One status: counted once per row that has it, and a key exactly when some row has it. */
  lemma {:induction false} StatusCountOf(rows: seq<Row>, k: Value)
    ensures CountOf(StatusCounts(rows), k) == multiset(ColumnOf(rows, "status"))[k]
    ensures k in StatusCounts(rows) <==> k in multiset(ColumnOf(rows, "status"))
  {
    if rows != [] {
      var init := rows[..|rows| - 1];
      var status := Field(rows[|rows| - 1], "status");
      StatusCountOf(init, k);
      assert StatusCounts(rows) == Tally(StatusCounts(init), status);
      assert ColumnOf(rows, "status") == ColumnOf(init, "status") + [status];
    }
  }

  /**
   * byStatus is the multiset of the statuses: each status is counted once
   * per row that has it, a status no row has is absent, and so the counts
   * add up to `total`.
   */
  lemma StatusCountsAreOccurrences(rows: seq<Row>)
    ensures forall k :: CountOf(StatusCounts(rows), k) == multiset(ColumnOf(rows, "status"))[k]
    ensures forall k :: k in StatusCounts(rows) <==> k in multiset(ColumnOf(rows, "status"))
    ensures |multiset(ColumnOf(rows, "status"))| == StatsOf(rows).total
  {
    forall k ensures CountOf(StatusCounts(rows), k) == multiset(ColumnOf(rows, "status"))[k]
                     && (k in StatusCounts(rows) <==> k in multiset(ColumnOf(rows, "status"))) {
      StatusCountOf(rows, k);
    }
  }

  /** One doctor id: counted once per row that has it when truthy, never when falsy. */
  lemma {:induction false} DoctorCountOf(rows: seq<Row>, k: Value)
    ensures CountOf(DoctorCounts(rows), k) == if Truthy(k) then multiset(ColumnOf(rows, "doctor_id"))[k] else 0
    ensures k in DoctorCounts(rows) <==> Truthy(k) && k in multiset(ColumnOf(rows, "doctor_id"))
  {
    if rows != [] {
      var init := rows[..|rows| - 1];
      var doctor := Field(rows[|rows| - 1], "doctor_id");
      DoctorCountOf(init, k);
      assert ColumnOf(rows, "doctor_id") == ColumnOf(init, "doctor_id") + [doctor];
      if Truthy(doctor) {
        assert DoctorCounts(rows) == Tally(DoctorCounts(init), doctor);
      } else {
        assert DoctorCounts(rows) == DoctorCounts(init);
      }
    }
  }

  /**
   * byDoctor is the multiset of the truthy doctor ids: a row without a
   * truthy doctor_id is not counted and no falsy key appears.
   */
  lemma DoctorCountsAreOccurrences(rows: seq<Row>)
    ensures forall k :: CountOf(DoctorCounts(rows), k) == if Truthy(k) then multiset(ColumnOf(rows, "doctor_id"))[k] else 0
    ensures forall k :: k in DoctorCounts(rows) <==> Truthy(k) && k in multiset(ColumnOf(rows, "doctor_id"))
  {
    forall k ensures CountOf(DoctorCounts(rows), k) == (if Truthy(k) then multiset(ColumnOf(rows, "doctor_id"))[k] else 0)
                     && (k in DoctorCounts(rows) <==> Truthy(k) && k in multiset(ColumnOf(rows, "doctor_id"))) {
      DoctorCountOf(rows, k);
    }
  }

  /** With no matching row every count is empty and averageDuration is 0. */
  lemma EmptySelection()
    ensures StatsOf([]) == Stats(0, map[], map[], Some(0))
  {
  }

  /** Rows that all last `d` minutes give an average of `d`. */
  lemma ConstantDurationAverage(rows: seq<Row>, d: int)
    requires rows != []
    requires forall i | 0 <= i < |rows| :: DurationOf(rows[i]) == Some(d * MsPerMinute)
    ensures StatsOf(rows).averageDuration == Some(d)
  {
    TotalOfConstant(rows, d * MsPerMinute);
    MeanOfMultiple(|rows|, d);
  }

  /** `n` durations of `d` minutes each round to a mean of `d`. */
  lemma MeanOfMultiple(n: int, d: int)
    requires n > 0
    ensures RoundedMean(n * (d * MsPerMinute), n) == d
  {
    var u := MsPerMinute * n;
    var q := RoundedMean(n * (d * MsPerMinute), n);
    assert 2 * (n * (d * MsPerMinute)) == (2 * d) * u;
    MeanIsUnique(q, d, u);
  }

  /** Only `d` has `2d` strictly within one unit `u` of `2q`. */
  lemma MeanIsUnique(q: int, d: int, u: int)
    requires u > 0
    requires (2 * q - 1) * u <= (2 * d) * u < (2 * q + 1) * u
    ensures q == d
  {
    ScaleStrict(2 * q - 1, 2 * d, u);
    ScaleStrict(2 * d, 2 * q + 1, u);
  }

  /** Multiplying by a positive number keeps a strict order. */
  lemma ScaleStrict(a: int, b: int, u: int)
    requires u > 0
    ensures a > b ==> a * u > b * u
  {
    if a > b {
      ProductAtLeast(a - b, u);
      assert a * u - b * u == (a - b) * u;
    }
  }

  /** A positive multiple of `u` is at least `u`. */
  lemma {:induction false} ProductAtLeast(x: int, u: int)
    requires x >= 1 && u >= 1
    ensures x * u >= u
    decreases x
  {
    if x > 1 {
      ProductAtLeast(x - 1, u);
      assert x * u == (x - 1) * u + u;
    }
  }

  /** Visiting one more row adds its duration to the total, or makes the total NaN. */
  lemma TotalStep(rows: seq<Row>)
    requires rows != []
    ensures var t, d := TotalDuration(rows[..|rows| - 1]), DurationOf(rows[|rows| - 1]);
            TotalDuration(rows) == if t.Some? && d.Some? then Some(t.value + d.value) else None
  {
  }

  /** Equal durations add up to their count times the duration. */
  lemma {:induction false} TotalOfConstant(rows: seq<Row>, d: int)
    requires forall i | 0 <= i < |rows| :: DurationOf(rows[i]) == Some(d)
    ensures TotalDuration(rows) == Some(|rows| * d)
  {
    if rows != [] {
      var init := rows[..|rows| - 1];
      assert forall i | 0 <= i < |init| :: init[i] == rows[i];
      TotalOfConstant(init, d);
      TotalStep(rows);
      assert DurationOf(rows[|rows| - 1]) == Some(d);
      assert (|init| + 1) * d == |init| * d + d;
    }
  }

  /** A row with an Invalid start or end makes the average NaN. */
  lemma {:induction false} InvalidRowGivesNaN(rows: seq<Row>, i: int)
    requires 0 <= i < |rows| && DurationOf(rows[i]).None?
    ensures TotalDuration(rows).None?
    ensures StatsOf(rows).averageDuration.None?
  {
    if i < |rows| - 1 {
      InvalidRowGivesNaN(rows[..|rows| - 1], i);
    }
  }
}

=== FILE: auth_controller.dfy ===
/**
 * `AuthController`: the login form check, login with a redirect chosen by
 * role, logout, and the page guards. Assignments to `window.location.href`
 * are returned as the target they would navigate to.
 */
module AuthControllers {
  import opened Js
  import opened AuthServices

  const AdminDashboard := "../admin/admin-dashboard.html"
  const MedicoDashboard := "../medico/medico-dashboard.html"
  const LoginPage := "../auth/login.html"
  const IndexPage := "../public/index.html"

  const BadEmail := "Email inválido"
  const ShortPassword := "Contraseña debe tener al menos 6 caracteres"
  const MissingRole := "Debe seleccionar un rol"
  const UnsupportedRole := "Rol no soportado"

  /**
   * `validateForm(formData)`: an e-mail that is truthy and holds '@', a
   * truthy password of at least six UTF-16 code units, a truthy role, in that
   * order; the first failing check raises. A truthy e-mail that is not a
   * string has no `includes` and raises a TypeError.
   */
  function ValidateForm(form: map<string, Value>): (r: Result<bool>)
    ensures r.Ok? <==> (var e := Prop(form, "email"); e.Str? && '@' in e.s)
                        && Truthy(Prop(form, "password")) && !ShorterThan(Prop(form, "password"), 6)
                        && Truthy(Prop(form, "role"))
    ensures r.Ok? ==> r.value
    ensures (!Truthy(Prop(form, "email")) || (Prop(form, "email").Str? && '@' !in Prop(form, "email").s))
            ==> r == Err(BadEmail)
    ensures (var e := Prop(form, "email"); e.Str? && '@' in e.s)
            && !(Truthy(Prop(form, "password")) && !ShorterThan(Prop(form, "password"), 6))
            ==> r == Err(ShortPassword)
    ensures (var e := Prop(form, "email"); e.Str? && '@' in e.s)
            && Truthy(Prop(form, "password")) && !ShorterThan(Prop(form, "password"), 6)
            && !Truthy(Prop(form, "role"))
            ==> r == Err(MissingRole)
    ensures Truthy(Prop(form, "email")) && !Prop(form, "email").Str? ==> r == Err(NotAFunction)
  {
    var email := Prop(form, "email");
    var password := Prop(form, "password");
    if !Truthy(email) then Err(BadEmail)
    else
      match Includes(email, '@')
      case Err(e) => Err(e)
      case Ok(hasAt) =>
        if !hasAt then Err(BadEmail)
        else if !Truthy(password) || ShorterThan(password, 6) then Err(ShortPassword)
        else if !Truthy(Prop(form, "role")) then Err(MissingRole)
        else Ok(true)
  }

  /** The `switch (user.role)` after login: the dashboard of that role, or an error. */
  function RedirectTarget(role: string): (r: Result<string>)
    ensures role == "admin" <==> r == Ok(AdminDashboard)
    ensures role == "medico" <==> r == Ok(MedicoDashboard)
    ensures r.Err? <==> role != "admin" && role != "medico"
    ensures r.Err? ==> r.message == UnsupportedRole
  {
    if role == "admin" then Ok(AdminDashboard)
    else if role == "medico" then Ok(MedicoDashboard)
    else Err(UnsupportedRole)
  }

  /** How `login(formData)` ends: a navigation, or an error passed to `handleError` (never re-raised). */
  datatype LoginOutcome = Redirected(target: string) | Handled(message: string)

  /** The outcome of `login(formData)`; the service is called only once the form passes. */
  function LoginOutcomeOf(form: map<string, Value>): (o: LoginOutcome)
    ensures ValidateForm(form).Err? ==> o == Handled(ValidateForm(form).message)
    ensures o.Redirected? <==> ValidateForm(form).Ok?
                               && Authenticate(Prop(form, "email"), Prop(form, "password"), Prop(form, "role")).Some?
    ensures o.Redirected? ==> o.target == AdminDashboard || o.target == MedicoDashboard
    ensures o.Redirected? ==> RedirectTarget(Authenticate(Prop(form, "email"), Prop(form, "password"),
                                                          Prop(form, "role")).value.role) == Ok(o.target)
    ensures ValidateForm(form).Ok? && Authenticate(Prop(form, "email"), Prop(form, "password"), Prop(form, "role")).None?
            ==> o == Handled(InvalidCredentials)
    ensures o != Handled(UnsupportedRole)
  {
    match ValidateForm(form)
    case Err(e) => Handled(e)
    case Ok(_) =>
      match Authenticate(Prop(form, "email"), Prop(form, "password"), Prop(form, "role"))
      case None => Handled(InvalidCredentials)
      case Some(u) =>
        match RedirectTarget(u.role)
        case Ok(target) => Redirected(target)
        case Err(e) => Handled(e)
  }

  /** A form holding an e-mail with an '@', a password of six or more characters and a role passes. */
  lemma WellFormedFormPasses(form: map<string, Value>, email: string, password: string, role: string, at: int)
    requires Prop(form, "email") == Str(email) && Prop(form, "password") == Str(password)
    requires Prop(form, "role") == Str(role) && role != ""
    requires 0 <= at < |email| && email[at] == '@' && |password| >= 6
    ensures ValidateForm(form).Ok?
  {
    StringShorterThan(password, 6);
  }

  /** The two hard-coded accounts pass the form check. */
  lemma AccountsPassFormCheck(form: map<string, Value>)
    requires Authenticate(Prop(form, "email"), Prop(form, "password"), Prop(form, "role")).Some?
    ensures ValidateForm(form).Ok?
  {
    if Prop(form, "role") == Str("admin") && Prop(form, "email") == Str("admin@miposta.com")
       && Prop(form, "password") == Str("admin123") {
      WellFormedFormPasses(form, "admin@miposta.com", "admin123", "admin", 5);
    } else {
      WellFormedFormPasses(form, "medico@miposta.com", "medico123", "medico", 6);
    }
  }

  class AuthController {
    const service: AuthService

    constructor(service: AuthService)
      ensures this.service == service
    {
      this.service := service;
    }

    /**
     * `login(formData)`: validates, logs in through the service and picks the
     * dashboard of the user's role. A failure at any step changes no session
     * state and is handled, not raised.
     */
    method Login(form: map<string, Value>) returns (o: LoginOutcome)
      modifies service, service.storage
      ensures o == LoginOutcomeOf(form)
      ensures o.Redirected? ==> service.currentUser == Authenticate(Prop(form, "email"), Prop(form, "password"), Prop(form, "role"))
                                && service.currentUser.Some?
                                && service.storage.items == old(service.storage.items)[SessionKey := service.currentUser.value]
      ensures o.Handled? ==> service.currentUser == old(service.currentUser)
                             && service.storage.items == old(service.storage.items)
    {
      var check := ValidateForm(form);
      if check.Err? {
        return Handled(check.message);
      }
      var login := service.Login(Prop(form, "email"), Prop(form, "password"), Prop(form, "role"));
      if login.Err? {
        return Handled(login.message);
      }
      var target := RedirectTarget(login.value.role);
      if target.Err? {
        return Handled(target.message);
      }
      o := Redirected(target.value);
    }

    /** `logout()`: ends the session and navigates to the public index. */
    method Logout() returns (target: string)
      modifies service, service.storage
      ensures target == IndexPage
      ensures service.storage.items == old(service.storage.items) - {SessionKey}
      ensures service.currentUser == None
    {
      service.Logout();
      target := IndexPage;
    }

    /** `checkAuth()`: true with a current user; otherwise it sends the browser to the login page. */
    method CheckAuth() returns (ok: bool, target: Option<string>)
      modifies service
      ensures ok <==> Session(old(service.currentUser), service.storage.items).Some?
      ensures target == if ok then None else Some(LoginPage)
      ensures service.currentUser == Session(old(service.currentUser), service.storage.items)
    {
      var user := service.GetCurrentUser();
      if user.None? {
        return false, Some(LoginPage);
      }
      return true, None;
    }

    /**
     * `checkRole(allowedRoles)`: true with a current user whose role is
     * allowed; otherwise it sends the browser to the public index.
     */
    method CheckRole(allowedRoles: seq<Value>) returns (ok: bool, target: Option<string>)
      modifies service
      ensures var u := Session(old(service.currentUser), service.storage.items);
              ok <==> u.Some? && Str(u.value.role) in allowedRoles
      ensures target == if ok then None else Some(IndexPage)
      ensures service.currentUser == Session(old(service.currentUser), service.storage.items)
    {
      var user := service.GetCurrentUser();
      if user.None? || Str(user.value.role) !in allowedRoles {
        return false, Some(IndexPage);
      }
      return true, None;
    }
  }
}

=== FILE: auth_service.dfy ===
/**
 * `AuthService` (the same code in both copies of the project): a session
 * kept in a cached `currentUser` and in a key-value storage (the browser's
 * `localStorage` by default), with two hard-coded accounts.
 */
module AuthServices {
  import opened Js

  /** The user record login builds (stored as JSON text by `login`, as the record itself here). */
  datatype SessionUser = SessionUser(id: int, email: string, role: string, name: string)

  const SessionKey := "currentUser"
  const InvalidCredentials := "Credenciales inválidas"

  const AdminUser := SessionUser(1, "admin@miposta.com", "admin", "Administrador")
  const MedicoUser := SessionUser(2, "medico@miposta.com", "medico", "Dr. Juan Pérez")

  /**
   * The credential check of `login`: exactly two (role, e-mail, password)
   * triples succeed, compared with `===`.
   */
  function Authenticate(email: Value, password: Value, role: Value): (u: Option<SessionUser>)
    ensures u == Some(AdminUser)
            <==> role == Str("admin") && email == Str("admin@miposta.com") && password == Str("admin123")
    ensures u == Some(MedicoUser)
            <==> role == Str("medico") && email == Str("medico@miposta.com") && password == Str("medico123")
    ensures u.Some? ==> u == Some(AdminUser) || u == Some(MedicoUser)
  {
    if role == Str("admin") && email == Str("admin@miposta.com") && password == Str("admin123") then
      Some(AdminUser)
    else if role == Str("medico") && email == Str("medico@miposta.com") && password == Str("medico123") then
      Some(MedicoUser)
    else None
  }

  /** Every account login can produce has a role among admin and medico, and id 1 or 2. */
  lemma AuthenticatedAccounts(email: Value, password: Value, role: Value)
    requires Authenticate(email, password, role).Some?
    ensures var u := Authenticate(email, password, role).value;
            (u.role == "admin" && u.id == 1) || (u.role == "medico" && u.id == 2)
    ensures Str(Authenticate(email, password, role).value.role) == role
  {
  }

  /**
   * The user `getCurrentUser` reports: the cached one, else the one kept in
   * storage under 'currentUser', else none.
   */
  function Session(cache: Option<SessionUser>, items: map<string, SessionUser>): (u: Option<SessionUser>)
    ensures cache.Some? ==> u == cache
    ensures cache.None? ==> (u.Some? <==> SessionKey in items)
    ensures cache.None? && SessionKey in items ==> u == Some(items[SessionKey])
  {
    if cache.Some? then cache
    else if SessionKey in items then Some(items[SessionKey])
    else None
  }

  /** The key-value storage, shared by every service built over it. */
  class Storage {
    var items: map<string, SessionUser>

    constructor(items: map<string, SessionUser>)
      ensures this.items == items
    {
      this.items := items;
    }
  }

  class AuthService {
    const storage: Storage
    var currentUser: Option<SessionUser>

    /** `new AuthService(storage)`: nothing cached yet. */
    constructor(storage: Storage)
      ensures this.storage == storage && currentUser == None
    {
      this.storage := storage;
      currentUser := None;
    }

    /**
     * `login(email, password, role)`: on a known triple the user is written
     * to storage under 'currentUser', cached and returned; otherwise it
     * raises and changes nothing.
     */
    method Login(email: Value, password: Value, role: Value) returns (r: Result<SessionUser>)
      modifies this, storage
      ensures r.Ok? <==> Authenticate(email, password, role).Some?
      ensures r.Ok? ==> r.value == Authenticate(email, password, role).value
                        && storage.items == old(storage.items)[SessionKey := r.value]
                        && currentUser == Some(r.value)
      ensures r.Err? ==> r.message == InvalidCredentials
                         && storage.items == old(storage.items) && currentUser == old(currentUser)
    {
      var user := Authenticate(email, password, role);
      if user.Some? {
        storage.items := storage.items[SessionKey := user.value];
        currentUser := user;
        r := Ok(user.value);
      } else {
        r := Err(InvalidCredentials);
      }
    }

    /** `logout()`: removes 'currentUser' from storage and clears the cache. */
    method Logout()
      modifies this, storage
      ensures storage.items == old(storage.items) - {SessionKey}
      ensures currentUser == None
    {
      storage.items := storage.items - {SessionKey};
      currentUser := None;
    }

    /**
     * `getCurrentUser()`: the cached user; with none cached, the stored one,
     * which is then cached.
     */
    method GetCurrentUser() returns (u: Option<SessionUser>)
      modifies this
      ensures u == Session(old(currentUser), storage.items)
      ensures currentUser == u
    {
      if currentUser.None? {
        if SessionKey in storage.items {
          currentUser := Some(storage.items[SessionKey]);
        }
      }
      u := currentUser;
    }

    /** `isAuthenticated()`: a current user exists. */
    method IsAuthenticated() returns (b: bool)
      modifies this
      ensures b <==> Session(old(currentUser), storage.items).Some?
      ensures currentUser == Session(old(currentUser), storage.items)
    {
      var u := GetCurrentUser();
      b := u.Some?;
    }

    /**
     * `hasRole(role)`: a current user exists and has that role. (With no
     * user `hasRole` returns `null`, which callers read as false.)
     */
    method HasRole(role: Value) returns (b: bool)
      modifies this
      ensures var u := Session(old(currentUser), storage.items);
              b <==> u.Some? && Str(u.value.role) == role
      ensures currentUser == Session(old(currentUser), storage.items)
    {
      var u := GetCurrentUser();
      b := u.Some? && Str(u.value.role) == role;
    }
  }

  /**
   * A login survives a page load: a fresh service over the same storage
   * reports the user that logged in.
   */
  method ReloadAfterLogin(storage: Storage, email: Value, password: Value, role: Value)
    returns (login: Result<SessionUser>, reloaded: Option<SessionUser>)
    modifies storage
    ensures login.Ok? ==> reloaded == Some(login.value)
    ensures login.Err? ==> reloaded == Session(None, old(storage.items))
  {
    var first := new AuthService(storage);
    login := first.Login(email, password, role);
    var second := new AuthService(storage);
    reloaded := second.GetCurrentUser();
  }

  /** After logout nobody is authenticated, whatever was cached or stored before. */
  method LogoutEndsSession(service: AuthService) returns (authenticated: bool)
    modifies service, service.storage
    ensures !authenticated
  {
    service.Logout();
    authenticated := service.IsAuthenticated();
  }

  /**
   * The cache outlives storage: when another service over the same storage
   * logs out, a service that had already read the user still reports it.
   */
  method StaleCacheAfterForeignLogout(service: AuthService) returns (before: Option<SessionUser>, after: Option<SessionUser>)
    modifies service, service.storage
    ensures after == before
  {
    before := service.GetCurrentUser();
    var other := new AuthService(service.storage);
    other.Logout();
    after := service.GetCurrentUser();
  }
}

=== FILE: availability.dfy ===
/**
 * `AppointmentService.checkDoctorAvailability(doctorId, startTime, endTime,
 * excludeAppointmentId)`: the doctor is free when no row of the table
 * overlaps the requested window. The overlap test uses `whereBetween`,
 * whose bounds are inclusive, so two windows that only touch conflict.
 */
module DoctorAvailability {
  import opened Instants
  import opened Js
  import opened AppointmentTable

  const BadWindow := "Fechas de inicio o fin no válidas"

  /**
   * The disjunction of the query: the row starts inside the window, or ends
   * inside it, or starts no later and ends no earlier than it.
   */
  predicate Overlaps(rowStart: Time, rowEnd: Time, start: int, end: int) {
    Between(rowStart, At(start), At(end)) || Between(rowEnd, At(start), At(end))
    || (NotAfter(rowStart, At(start)) && NotAfter(At(end), rowEnd))
  }

  /** A row the query returns: same doctor, not cancelled, overlapping, and not the excluded one. */
  predicate Conflicts(r: Row, doctorId: Value, start: int, end: int, excludeId: Value) {
    SqlEq(Col(r, "doctor_id"), doctorId)
    && NotCancelled(r)
    && Overlaps(SqlTime(Col(r, "start_time")), SqlTime(Col(r, "end_time")), start, end)
    && !(Truthy(excludeId) && Num(r.id) == excludeId)
  }

  /** `overlappingAppointments.length === 0`. */
  function NoConflict(rows: seq<Row>, doctorId: Value, start: int, end: int, excludeId: Value): (free: bool)
    ensures free <==> forall i | 0 <= i < |rows| :: !Conflicts(rows[i], doctorId, start, end, excludeId)
  {
    if rows == [] then true
    else !Conflicts(rows[0], doctorId, start, end, excludeId) && NoConflict(rows[1..], doctorId, start, end, excludeId)
  }

  /**
   * The whole check: an Invalid start or end raises; otherwise true exactly
   * when no row conflicts with the window.
   */
  function CheckDoctorAvailability(rows: seq<Row>, doctorId: Value, startTime: Value, endTime: Value, excludeId: Value)
    : (r: Result<bool>)
    ensures r.Err? <==> ToDate(startTime).Invalid? || ToDate(endTime).Invalid?
    ensures r.Err? ==> r.message == BadWindow
    ensures r.Ok? ==> (r.value <==> forall i | 0 <= i < |rows| ::
                         !Conflicts(rows[i], doctorId, ToDate(startTime).ms, ToDate(endTime).ms, excludeId))
  {
    var start := ToDate(startTime);
    var end := ToDate(endTime);
    if start.Invalid? || end.Invalid? then Err(BadWindow)
    else Ok(NoConflict(rows, doctorId, start.ms, end.ms, excludeId))
  }

  /**
   * For well-formed windows the test is exactly the intersection of the two
   * closed intervals [rowStart, rowEnd] and [start, end].
   */
  lemma OverlapIsClosedIntersection(rowStart: int, rowEnd: int, start: int, end: int)
    requires rowStart <= rowEnd && start <= end
    ensures Overlaps(At(rowStart), At(rowEnd), start, end) <==> rowStart <= end && start <= rowEnd
  {
    if rowStart <= end && start <= rowEnd {
      if rowStart < start && rowEnd > end {
        assert NotAfter(At(rowStart), At(start)) && NotAfter(At(end), At(rowEnd));
      }
    }
  }

  /**
   * Touching windows conflict: an appointment of the same doctor that ends
   * at the very instant the new one starts makes the doctor unavailable.
   */
  lemma TouchingWindowsConflict(r: Row, doctorId: Value, start: int, end: int)
    requires SqlEq(Col(r, "doctor_id"), doctorId) && NotCancelled(r)
    requires -MaxTime <= start <= end <= MaxTime
    requires SqlTime(Col(r, "end_time")) == At(start)
    ensures Conflicts(r, doctorId, start, end, Null)
    ensures CheckDoctorAvailability([r], doctorId, Num(start), Num(end), Null) == Ok(false)
  {
    assert Between(At(start), At(start), At(end));
  }

  /** Rows that are cancelled, of another doctor, excluded or without times never make the doctor unavailable. */
  lemma NonCandidatesNeverConflict(r: Row, doctorId: Value, start: int, end: int, excludeId: Value)
    ensures Col(r, "status") == Str("cancelled") ==> !Conflicts(r, doctorId, start, end, excludeId)
    ensures Col(r, "status").Null? ==> !Conflicts(r, doctorId, start, end, excludeId)
    ensures !SqlEq(Col(r, "doctor_id"), doctorId) ==> !Conflicts(r, doctorId, start, end, excludeId)
    ensures Truthy(excludeId) && excludeId == Num(r.id) ==> !Conflicts(r, doctorId, start, end, excludeId)
    ensures Col(r, "start_time").Null? && Col(r, "end_time").Null? ==> !Conflicts(r, doctorId, start, end, excludeId)
  {
  }
}

=== FILE: instants.dfy ===
/**
 * Time values as a JavaScript `Date` holds them, the comparisons the code
 * applies to them, and the text the model reads and writes: the
 * `YYYY-MM-DDTHH:mm:ss.sssZ` string of `Date.prototype.toISOString` and the
 * date-only `YYYY-MM-DD`, two forms of the Date Time String Format of
 * ECMA-262, section 21.4.1.32.
 */
module Instants {

  /** A Date's time value: milliseconds since 1970-01-01T00:00:00Z, or NaN ("Invalid Date"). */
  datatype Time = At(ms: int) | Invalid

  /** The largest magnitude of a time value: 100,000,000 days either side of the epoch. */
  const MaxTime: int := 8_640_000_000_000_000
  const MsPerDay: int := 86_400_000

  /** The time values a Date object can hold. */
  predicate InRange(t: Time) {
    t.At? ==> -MaxTime <= t.ms <= MaxTime
  }

  type DateTime = t: Time | InRange(t) witness Invalid

  /** TimeClip: a time value beyond the representable range becomes NaN. */
  function Clip(t: Time): (r: DateTime)
    ensures r.At? <==> t.At? && -MaxTime <= t.ms <= MaxTime
    ensures r.At? ==> r == t
  {
    if t.At? && -MaxTime <= t.ms <= MaxTime then t else Invalid
  }

  /** `a < b` on two Dates: false as soon as either is NaN. */
  predicate Before(a: Time, b: Time) {
    a.At? && b.At? && a.ms < b.ms
  }

  /** `a <= b` on two Dates: false as soon as either is NaN. */
  predicate NotAfter(a: Time, b: Time) {
    a.At? && b.At? && a.ms <= b.ms
  }

  // ---------------------------------------------------------------------
  // The proleptic Gregorian calendar, counted in days from 1970-01-01.
  // ---------------------------------------------------------------------

  predicate IsLeap(y: int) {
    y % 4 == 0 && (y % 100 != 0 || y % 400 == 0)
  }

  function YearLength(y: int): int {
    if IsLeap(y) then 366 else 365
  }

  /** The day number of January 1 of year `y`. */
  function YearStart(y: int): int
    decreases if y >= 1970 then y - 1970 else 1970 - y
  {
    if y == 1970 then 0
    else if y > 1970 then YearStart(y - 1) + YearLength(y - 1)
    else YearStart(y + 1) - YearLength(y)
  }

  lemma YearStartStep(y: int)
    ensures YearStart(y + 1) == YearStart(y) + YearLength(y)
  {
  }

  /** The year containing day `d`, searching upwards from year `y`. */
  function YearFrom(y: int, d: int): (r: int)
    requires YearStart(y) <= d
    ensures YearStart(r) <= d < YearStart(r + 1)
    decreases d - YearStart(y)
  {
    YearStartStep(y);
    if d < YearStart(y + 1) then y else YearFrom(y + 1, d)
  }

  /** The year containing day `d`, searching downwards from year `y`. */
  function YearBelow(y: int, d: int): (r: int)
    requires d < YearStart(y)
    ensures YearStart(r) <= d < YearStart(r + 1)
    decreases YearStart(y) - d
  {
    YearStartStep(y - 1);
    if YearStart(y - 1) <= d then y - 1 else YearBelow(y - 1, d)
  }

  /** The year containing day number `d`. */
  function YearOf(d: int): (y: int)
    ensures YearStart(y) <= d < YearStart(y + 1)
  {
    if d >= 0 then YearFrom(1970, d) else YearBelow(1970, d)
  }

  lemma {:induction false} YearStartAbove(y: int)
    requires y >= 1970
    ensures YearStart(y) >= 365 * (y - 1970)
    decreases y - 1970
  {
    if y > 1970 {
      YearStartAbove(y - 1);
    }
  }

  lemma {:induction false} YearStartBelow(y: int)
    requires y <= 1970
    ensures YearStart(y) <= 365 * (y - 1970)
    decreases 1970 - y
  {
    if y < 1970 {
      YearStartBelow(y + 1);
    }
  }

  /** Every day a Date can hold lies in a year that six decimal digits can write. */
  lemma YearOfInRange(d: int)
    requires -100_000_000 <= d <= 100_000_000
    ensures -999_999 <= YearOf(d) <= 999_999
  {
    var y := YearOf(d);
    YearStartStep(y);
    if y >= 1970 {
      YearStartAbove(y);
    } else {
      YearStartBelow(y + 1);
    }
  }

  function MonthLength(y: int, m: int): int
    requires 1 <= m <= 12
  {
    if m == 2 then (if IsLeap(y) then 29 else 28)
    else if m == 4 || m == 6 || m == 9 || m == 11 then 30
    else 31
  }

  /** Days of year `y` that precede the first of month `m`. */
  function DaysBeforeMonth(y: int, m: int): int
    requires 1 <= m <= 12
  {
    [0, 31, 59, 90, 120, 151, 181, 212, 243, 273, 304, 334][m - 1]
    + (if m > 2 && IsLeap(y) then 1 else 0)
  }

  /** The month holding day `doy` (0-based) of year `y`, searching downwards from month `m`. */
  function MonthFrom(y: int, doy: int, m: int): (r: int)
    requires 1 <= m <= 12 && 0 <= doy
    requires doy < DaysBeforeMonth(y, m) + MonthLength(y, m)
    ensures 1 <= r <= m
    ensures DaysBeforeMonth(y, r) <= doy < DaysBeforeMonth(y, r) + MonthLength(y, r)
  {
    if DaysBeforeMonth(y, m) <= doy then m
    else
      assert DaysBeforeMonth(y, m - 1) + MonthLength(y, m - 1) == DaysBeforeMonth(y, m);
      MonthFrom(y, doy, m - 1)
  }

  /** The calendar fields of a time value, as toISOString writes them (UTC). */
  datatype Fields = Fields(year: int, month: int, day: int, hour: int, minute: int, second: int, milli: int)

  /** The fields of the time value `t`, in UTC. */
  function FieldsOf(t: int): (f: Fields)
    ensures 1 <= f.month <= 12 && 1 <= f.day <= MonthLength(f.year, f.month)
    ensures 0 <= f.hour < 24 && 0 <= f.minute < 60 && 0 <= f.second < 60 && 0 <= f.milli < 1000
  {
    var d := t / MsPerDay;
    var rem := t % MsPerDay;
    var y := YearOf(d);
    YearStartStep(y);
    var doy := d - YearStart(y);
    var m := MonthFrom(y, doy, 12);
    var secs := rem / 1000;
    var mins := secs / 60;
    Fields(y, m, doy - DaysBeforeMonth(y, m) + 1, mins / 60, mins % 60, secs % 60, rem % 1000)
  }

  /** The time value the fields denote (before TimeClip). */
  function TimeOfFields(f: Fields): int
    requires 1 <= f.month <= 12
  {
    (YearStart(f.year) + DaysBeforeMonth(f.year, f.month) + f.day - 1) * MsPerDay
    + f.hour * 3_600_000 + f.minute * 60_000 + f.second * 1000 + f.milli
  }

  /** Breaking a time value into fields loses nothing. */
  lemma FieldsRoundTrip(t: int)
    ensures TimeOfFields(FieldsOf(t)) == t
  {
    var d := t / MsPerDay;
    var rem := t % MsPerDay;
    var secs := rem / 1000;
    var mins := secs / 60;
    assert rem == secs * 1000 + rem % 1000;
    assert secs == mins * 60 + secs % 60;
    assert mins == (mins / 60) * 60 + mins % 60;
    assert rem == (mins / 60) * 3_600_000 + (mins % 60) * 60_000 + (secs % 60) * 1000 + rem % 1000;
    assert t == d * MsPerDay + rem;
  }

  // ---------------------------------------------------------------------
  // Decimal digits.
  // ---------------------------------------------------------------------

  function DigitChar(k: int): char
    requires 0 <= k < 10
  {
    (48 + k) as char
  }

  predicate IsDigit(c: char) {
    '0' <= c <= '9'
  }

  function DigitValue(c: char): int {
    c as int - 48
  }

  /** `n` written with exactly two digits (`n < 100`). */
  function Two(n: int): (s: string)
    requires 0 <= n < 100
    ensures |s| == 2
  {
    [DigitChar(n / 10), DigitChar(n % 10)]
  }

  /** `n` written with exactly three digits (`n < 1000`). */
  function Three(n: int): (s: string)
    requires 0 <= n < 1000
    ensures |s| == 3
  {
    [DigitChar(n / 100), DigitChar(n / 10 % 10), DigitChar(n % 10)]
  }

  /** `n` written with exactly `w` digits (`n < 10^w`), most significant first. */
  function Digits(n: nat, w: nat): (s: string)
    ensures |s| == w
  {
    if w == 0 then [] else Digits(n / 10, w - 1) + [DigitChar(n % 10)]
  }

  /** The number a run of digits denotes. */
  function ValueOf(s: string): int {
    if s == [] then 0 else ValueOf(s[..|s| - 1]) * 10 + DigitValue(s[|s| - 1])
  }

  predicate AllDigits(s: string) {
    forall i | 0 <= i < |s| :: IsDigit(s[i])
  }

  function Pow10(w: nat): nat {
    if w == 0 then 1 else 10 * Pow10(w - 1)
  }

  /** Reading back the digits written for `n` gives `n`. */
  lemma {:induction false} DigitsRoundTrip(n: nat, w: nat)
    requires n < Pow10(w)
    ensures AllDigits(Digits(n, w)) && ValueOf(Digits(n, w)) == n
  {
    if w > 0 {
      DigitsRoundTrip(n / 10, w - 1);
      var s := Digits(n, w);
      assert s[..|s| - 1] == Digits(n / 10, w - 1);
    }
  }

  // ---------------------------------------------------------------------
  // toISOString and the ISO text `new Date(text)` reads.
  // ---------------------------------------------------------------------

  /** The year as toISOString writes it: four digits, or a sign and six digits outside 0..9999. */
  function YearText(y: int): (s: string)
    requires -999_999 <= y <= 999_999
    ensures |s| == (if 0 <= y <= 9999 then 4 else 7)
  {
    if 0 <= y <= 9999 then Digits(y, 4)
    else (if y < 0 then "-" else "+") + Digits(if y < 0 then -y else y, 6)
  }

  /** Everything after the year: `-MM-DDTHH:mm:ss.sssZ`. */
  function TailText(f: Fields): (s: string)
    requires 1 <= f.month <= 12 && 1 <= f.day <= 31
    requires 0 <= f.hour < 24 && 0 <= f.minute < 60 && 0 <= f.second < 60 && 0 <= f.milli < 1000
    ensures |s| == 20
  {
    ['-'] + Two(f.month) + ['-'] + Two(f.day) + ['T'] + Two(f.hour) + [':'] + Two(f.minute)
    + [':'] + Two(f.second) + ['.'] + Three(f.milli) + ['Z']
  }

  /**
   * `Date.prototype.toISOString` of a valid time value. It throws a
   * RangeError on an Invalid Date, which is why it takes `At` only.
   */
  function ToIsoString(t: int): (s: string)
    requires -MaxTime <= t <= MaxTime
    ensures |s| == 24 || |s| == 27
    ensures s[|s| - 1] == 'Z' && s[|s| - 14] == 'T'
  {
    var f := FieldsOf(t);
    YearOfInRange(t / MsPerDay);
    YearText(f.year) + TailText(f)
  }

  function TwoAt(s: string, i: int): int
    requires 0 <= i && i + 2 <= |s|
  {
    DigitValue(s[i]) * 10 + DigitValue(s[i + 1])
  }

  predicate TwoDigitsAt(s: string, i: int)
    requires 0 <= i && i + 2 <= |s|
  {
    IsDigit(s[i]) && IsDigit(s[i + 1])
  }

  /**
   * Reads, in the year `y`, either `-MM-DDTHH:mm:ss.sssZ` or the date-only
   * `-MM-DD`, which stands for midnight UTC of that day.
   */
  function ParseTail(y: int, s: string): (r: DateTime)
    ensures r.At? ==> (|s| == 20 && s[6] == 'T' && s[19] == 'Z') || (|s| == 6 && s[0] == '-' && s[3] == '-')
  {
    if |s| == 20 && s[0] == '-' && s[3] == '-' && s[6] == 'T' && s[9] == ':' && s[12] == ':'
       && s[15] == '.' && s[19] == 'Z'
       && TwoDigitsAt(s, 1) && TwoDigitsAt(s, 4) && TwoDigitsAt(s, 7) && TwoDigitsAt(s, 10)
       && TwoDigitsAt(s, 13) && AllDigits(s[16..19])
    then
      var f := Fields(y, TwoAt(s, 1), TwoAt(s, 4), TwoAt(s, 7), TwoAt(s, 10), TwoAt(s, 13), ValueOf(s[16..19]));
      if 1 <= f.month <= 12 && 1 <= f.day <= MonthLength(y, f.month)
         && f.hour < 24 && f.minute < 60 && f.second < 60
      then Clip(At(TimeOfFields(f)))
      else Invalid
    else if |s| == 6 && s[0] == '-' && s[3] == '-' && TwoDigitsAt(s, 1) && TwoDigitsAt(s, 4) then
      var f := Fields(y, TwoAt(s, 1), TwoAt(s, 4), 0, 0, 0, 0);
      if 1 <= f.month <= 12 && 1 <= f.day <= MonthLength(y, f.month)
      then Clip(At(TimeOfFields(f)))
      else Invalid
    else Invalid
  }

  /**
   * `new Date(text)` for two forms of the Date Time String Format: the one
   * toISOString writes, and the date-only `YYYY-MM-DD`, read as UTC. The
   * year is four digits, or a sign and six digits (`-000000` is refused).
   * The model reads every other text as unparseable.
   */
  function ParseIso(s: string): (r: DateTime)
    ensures r.At? ==> ((|s| == 24 || |s| == 27) && s[|s| - 14] == 'T' && s[|s| - 1] == 'Z')
                      || ((|s| == 10 || |s| == 13) && s[|s| - 6] == '-' && s[|s| - 3] == '-')
  {
    if (|s| == 10 || |s| == 24) && AllDigits(s[..4]) then
      ParseTail(ValueOf(s[..4]), s[4..])
    else if (|s| == 13 || |s| == 27) && (s[0] == '+' || s[0] == '-') && AllDigits(s[1..7])
            && !(s[0] == '-' && ValueOf(s[1..7]) == 0) then
      ParseTail(if s[0] == '-' then -ValueOf(s[1..7]) else ValueOf(s[1..7]), s[7..])
    else Invalid
  }

  /** A date-only tail reads as the same day at `T00:00:00.000Z`. */
  lemma DayTailIsMidnight(y: int, s: string)
    requires |s| == 6
    ensures ParseTail(y, s) == ParseTail(y, s + "T00:00:00.000Z")
  {
    var u := s + "T00:00:00.000Z";
    assert u[..6] == s;
    assert u[6] == 'T' && u[9] == ':' && u[12] == ':' && u[15] == '.' && u[19] == 'Z';
    assert TwoDigitsAt(u, 7) && TwoAt(u, 7) == 0;
    assert TwoDigitsAt(u, 10) && TwoAt(u, 10) == 0;
    assert TwoDigitsAt(u, 13) && TwoAt(u, 13) == 0;
    ThreeRoundTrip(0);
    assert u[16..19] == Three(0);
  }

  /** A four-digit-year date reads as that day at `T00:00:00.000Z`. */
  lemma ShortDateIsMidnight(s: string)
    requires |s| == 10
    ensures ParseIso(s) == ParseIso(s + "T00:00:00.000Z")
  {
    var u := s + "T00:00:00.000Z";
    assert u[..4] == s[..4];
    assert u[4..] == s[4..] + "T00:00:00.000Z";
    DayTailIsMidnight(ValueOf(s[..4]), s[4..]);
    assert ParseIso(s) == if AllDigits(s[..4]) then ParseTail(ValueOf(s[..4]), s[4..]) else Invalid;
    assert ParseIso(u) == if AllDigits(s[..4]) then ParseTail(ValueOf(s[..4]), u[4..]) else Invalid;
  }

  /** A signed six-digit-year date reads as that day at `T00:00:00.000Z`. */
  lemma LongDateIsMidnight(s: string)
    requires |s| == 13
    ensures ParseIso(s) == ParseIso(s + "T00:00:00.000Z")
  {
    var u := s + "T00:00:00.000Z";
    assert u[0] == s[0] && u[1..7] == s[1..7];
    assert u[7..] == s[7..] + "T00:00:00.000Z";
    var y := if s[0] == '-' then -ValueOf(s[1..7]) else ValueOf(s[1..7]);
    DayTailIsMidnight(y, s[7..]);
  }

  /**
   * A date-only text is read as UTC: `new Date("YYYY-MM-DD")` is the same
   * instant as `new Date("YYYY-MM-DDT00:00:00.000Z")`, valid or not.
   */
  lemma DateOnlyIsUtcMidnight(s: string)
    requires |s| == 10 || |s| == 13
    ensures ParseIso(s) == ParseIso(s + "T00:00:00.000Z")
  {
    if |s| == 10 {
      ShortDateIsMidnight(s);
    } else {
      LongDateIsMidnight(s);
    }
  }

  lemma TwoRoundTrip(s: string, i: int, n: int)
    requires 0 <= n < 100 && 0 <= i && i + 2 <= |s|
    requires s[i..i + 2] == Two(n)
    ensures TwoDigitsAt(s, i) && TwoAt(s, i) == n
  {
    assert s[i] == Two(n)[0] && s[i + 1] == Two(n)[1];
  }

  lemma ThreeRoundTrip(n: int)
    requires 0 <= n < 1000
    ensures AllDigits(Three(n)) && ValueOf(Three(n)) == n
  {
    var s := Three(n);
    assert s[..2][..1] == [s[0]];
    assert ValueOf(s[..2][..1]) == DigitValue(s[0]);
  }

  lemma TailRoundTrip(f: Fields)
    requires 1 <= f.month <= 12 && 1 <= f.day <= MonthLength(f.year, f.month)
    requires 0 <= f.hour < 24 && 0 <= f.minute < 60 && 0 <= f.second < 60 && 0 <= f.milli < 1000
    requires -MaxTime <= TimeOfFields(f) <= MaxTime
    ensures ParseTail(f.year, TailText(f)) == At(TimeOfFields(f))
  {
    var s := TailText(f);
    TwoRoundTrip(s, 1, f.month);
    TwoRoundTrip(s, 4, f.day);
    TwoRoundTrip(s, 7, f.hour);
    TwoRoundTrip(s, 10, f.minute);
    TwoRoundTrip(s, 13, f.second);
    assert s[16..19] == Three(f.milli);
    ThreeRoundTrip(f.milli);
  }

  /** A four-digit year followed by a tail reads as the tail read in that year. */
  lemma ShortYearRoundTrip(y: int, tail: string)
    requires 0 <= y <= 9999 && |tail| == 20
    ensures ParseIso(YearText(y) + tail) == ParseTail(y, tail)
  {
    var s := YearText(y) + tail;
    assert s[..4] == Digits(y, 4);
    assert s[4..] == tail;
    DigitsRoundTrip(y, 4);
  }

  /** A signed six-digit year followed by a tail reads as the tail read in that year. */
  lemma LongYearRoundTrip(y: int, tail: string)
    requires -999_999 <= y <= 999_999 && !(0 <= y <= 9999) && |tail| == 20
    ensures ParseIso(YearText(y) + tail) == ParseTail(y, tail)
  {
    var a := if y < 0 then -y else y;
    var sign := if y < 0 then '-' else '+';
    var digits := Digits(a, 6);
    assert Pow10(6) == 1_000_000;
    DigitsRoundTrip(a, 6);
    assert YearText(y) == [sign] + digits;
    var s := [sign] + digits + tail;
    assert |s| == 27 && s[0] == sign;
    assert s[1..7] == digits;
    assert s[7..] == tail;
    assert (if s[0] == '-' then -ValueOf(s[1..7]) else ValueOf(s[1..7])) == y;
  }

  /** `new Date(d.toISOString())` is `d` again, for every valid Date `d`. */
  lemma IsoRoundTrip(t: int)
    requires -MaxTime <= t <= MaxTime
    ensures ParseIso(ToIsoString(t)) == At(t)
  {
    var f := FieldsOf(t);
    YearOfInRange(t / MsPerDay);
    FieldsRoundTrip(t);
    TailRoundTrip(f);
    if 0 <= f.year <= 9999 {
      ShortYearRoundTrip(f.year, TailText(f));
    } else {
      LongYearRoundTrip(f.year, TailText(f));
    }
  }
}

=== FILE: js.dfy ===
/**
 * The fragment of JavaScript's value model the clinic front end relies on:
 * truthiness, `||` defaulting, property access on plain objects, `typeof`,
 * `new Date(v)`, and thrown errors as results.
 */
module Js {
  import opened Instants

  datatype Option<T> = None | Some(value: T)

  /** A value returned, or an `Error` thrown with its message. */
  datatype Result<T> = Ok(value: T) | Err(message: string)

  /**
   * A JavaScript value. Numbers are integers (no NaN, no fractions);
   * `DateObj` is a Date object; `Obj` is a plain object and its own
   * enumerable properties.
   */
  datatype Value =
    | Undefined
    | Null
    | Bool(b: bool)
    | Num(n: int)
    | Str(s: string)
    | DateObj(t: DateTime)
    | Obj(fields: map<string, Value>)

  /** The message V8 gives a call of a method that the receiver does not have. */
  const NotAFunction := "TypeError: not a function"
  /** The message V8 gives a property read on `undefined`. */
  const ReadOfUndefined := "TypeError: Cannot read properties of undefined"

  /** `!!v`. */
  predicate Truthy(v: Value) {
    match v
    case Undefined => false
    case Null => false
    case Bool(b) => b
    case Num(n) => n != 0
    case Str(s) => s != ""
    case DateObj(_) => true
    case Obj(_) => true
  }

  /** `a || b`: the first operand when it is truthy, else the second. */
  function Or(a: Value, b: Value): (r: Value)
    ensures Truthy(r) <==> Truthy(a) || Truthy(b)
    ensures Truthy(a) ==> r == a
    ensures !Truthy(a) ==> r == b
  {
    if Truthy(a) then a else b
  }

  /** `o.key` on a plain object: `undefined` for a missing property. */
  function Prop(o: map<string, Value>, key: string): (r: Value)
    ensures key !in o ==> r == Undefined
  {
    if key in o then o[key] else Undefined
  }

  /** `v.key` on a value that is not `null` or `undefined`. */
  function Get(v: Value, key: string): (r: Value)
    ensures !v.Obj? ==> r == Undefined
  {
    if v.Obj? then Prop(v.fields, key) else Undefined
  }

  function TypeOf(v: Value): string {
    match v
    case Undefined => "undefined"
    case Null => "object"
    case Bool(_) => "boolean"
    case Num(_) => "number"
    case Str(_) => "string"
    case DateObj(_) => "object"
    case Obj(_) => "object"
  }

  /**
   * `new Date(v)`: a Date copies another Date's time, a number is taken as
   * milliseconds, `null` and booleans convert to 0 and 1, text is parsed
   * (the `toISOString` form and the date-only form), and `undefined` or a plain object gives an
   * Invalid Date. Every result is TimeClip'ed.
   */
  function ToDate(v: Value): (r: DateTime)
    ensures v == Undefined || v.Obj? ==> r.Invalid?
    ensures v.Num? ==> (r.At? <==> -MaxTime <= v.n <= MaxTime) && (r.At? ==> r.ms == v.n)
  {
    match v
    case Undefined => Invalid
    case Null => At(0)
    case Bool(b) => At(if b then 1 else 0)
    case Num(n) => Clip(At(n))
    case Str(s) => ParseIso(s)
    case DateObj(t) => t
    case Obj(_) => Invalid
  }

  /** `new Date(new Date(v))` is `new Date(v)`. */
  lemma ToDateIdempotent(v: Value)
    ensures ToDate(DateObj(ToDate(v))) == ToDate(v)
  {
  }

  /** A Date's ISO text reads back as the same Date. */
  lemma IsoTextReadsBack(t: int)
    requires -MaxTime <= t <= MaxTime
    ensures ToDate(Str(ToIsoString(t))) == At(t)
  {
    IsoRoundTrip(t);
  }

  /** `s.includes(c)` when the receiver is a string, and the TypeError otherwise. */
  function Includes(v: Value, c: char): (r: Result<bool>)
    ensures r.Ok? <==> v.Str?
    ensures r.Ok? ==> (r.value <==> exists i | 0 <= i < |v.s| :: v.s[i] == c)
  {
    if v.Str? then Ok(c in v.s) else Err(NotAFunction)
  }

  /**
   * The length of `s` in UTF-16 code units, the unit of JavaScript's
   * `length`: a character above U+FFFF is stored as a surrogate pair.
   */
  function Utf16Length(s: string): (n: nat)
    ensures |s| <= n <= 2 * |s|
  {
    if s == [] then 0
    else Utf16Length(s[..|s| - 1]) + (if s[|s| - 1] as int > 0xFFFF then 2 else 1)
  }

  /** Text without characters above U+FFFF has as many code units as characters. */
  lemma {:induction false} BmpTextLength(s: string)
    requires forall i | 0 <= i < |s| :: s[i] as int <= 0xFFFF
    ensures Utf16Length(s) == |s|
  {
    if s != [] {
      BmpTextLength(s[..|s| - 1]);
    }
  }

  /**
   * `v.length`: the code-unit count of a string, the `length` property of
   * a plain object, and `undefined` for a boolean, a number or a Date.
   * Reading it on `null` or `undefined` raises a TypeError, so callers must
   * rule those out, as every `length` test in the code does by testing
   * truthiness first.
   */
  function Length(v: Value): (r: Value)
    requires v != Null && v != Undefined
    ensures v.Str? ==> r.Num? && |v.s| <= r.n <= 2 * |v.s|
    ensures v.Obj? && "length" !in v.fields ==> r == Undefined
    ensures !v.Str? && !v.Obj? ==> r == Undefined
  {
    match v
    case Str(s) => Num(Utf16Length(s))
    case Obj(fields) => Prop(fields, "length")
    case _ => Undefined
  }

  predicate IsDigits(s: string) {
    s != [] && forall i | 0 <= i < |s| :: '0' <= s[i] <= '9'
  }

  /** The value of a string of decimal digits. */
  function DecimalValue(s: string): nat
    requires forall i | 0 <= i < |s| :: '0' <= s[i] <= '9'
  {
    if s == [] then 0 else DecimalValue(s[..|s| - 1]) * 10 + (s[|s| - 1] as int - '0' as int)
  }

  /**
   * `Number(s)` for text: white space around the number is ignored, blank
   * text is 0, and a decimal integer with an optional sign is its value.
   * `None` stands for NaN.
   */
  function TextToNumber(s: string): Option<int> {
    var t := Trim(s);
    if t == [] then Some(0)
    else if IsDigits(t) then Some(DecimalValue(t))
    else if (t[0] == '-' || t[0] == '+') && IsDigits(t[1..]) then
      var m: int := DecimalValue(t[1..]);
      Some(if t[0] == '-' then -m else m)
    else None
  }

  /**
   * The number a relational comparison takes from `v`; `None` stands for
   * NaN. A plain object converts through its text "[object Object]".
   */
  function ToNumber(v: Value): Option<int> {
    match v
    case Undefined => None
    case Null => Some(0)
    case Bool(b) => Some(if b then 1 else 0)
    case Num(n) => Some(n)
    case Str(s) => TextToNumber(s)
    case DateObj(t) => if t.At? then Some(t.ms) else None
    case Obj(_) => None
  }

  /** `v.length < k` on a value that is neither `null` nor `undefined`: a comparison with NaN is false. */
  predicate ShorterThan(v: Value, k: int): (b: bool)
    requires v != Null && v != Undefined
    ensures v.Str? ==> (b <==> Utf16Length(v.s) < k)
    ensures Length(v) == Undefined ==> !b
    ensures v.Obj? && Prop(v.fields, "length").Num? ==> (b <==> Prop(v.fields, "length").n < k)
  {
    var n := ToNumber(Length(v));
    n.Some? && n.value < k
  }

  /** A string is shorter than `k` exactly when it has fewer than `k` code units. */
  lemma StringShorterThan(s: string, k: int)
    ensures ShorterThan(Str(s), k) <==> Utf16Length(s) < k
    ensures |s| >= k ==> !ShorterThan(Str(s), k)
  {
  }

  /** A character above U+FFFF counts as two code units, so "\U{1D49C}" is not shorter than 2. */
  lemma AstralCharCountsTwice()
    ensures |"\U{1D49C}"| == 1
    ensures Length(Str("\U{1D49C}")) == Num(2) && !ShorterThan(Str("\U{1D49C}"), 2)
  {
    var s := "\U{1D49C}";
    assert s[..0] == [];
    assert Utf16Length(s) == 2;
  }

  /** A plain object's own `length` is read and compared; an object without one is never shorter. */
  lemma ObjectLengthIsRead()
    ensures ShorterThan(Obj(map["length" := Num(1)]), 2)
    ensures !ShorterThan(Obj(map["length" := Num(2)]), 2)
    ensures !ShorterThan(Obj(map[]), 2) && !ShorterThan(Num(1), 2)
  {
  }

  /** The number of white-space characters `s` starts with. */
  function LeadingSpace(s: string): (n: nat)
    ensures n <= |s|
    ensures forall i | 0 <= i < n :: IsSpace(s[i])
    ensures n < |s| ==> !IsSpace(s[n])
  {
    if s != [] && IsSpace(s[0]) then 1 + LeadingSpace(s[1..]) else 0
  }

  /** The number of white-space characters `s` ends with. */
  function TrailingSpace(s: string): (n: nat)
    ensures n <= |s|
    ensures forall i | |s| - n <= i < |s| :: IsSpace(s[i])
    ensures n < |s| ==> !IsSpace(s[|s| - 1 - n])
  {
    if s != [] && IsSpace(s[|s| - 1]) then 1 + TrailingSpace(s[..|s| - 1]) else 0
  }

  /**
   * `String.prototype.trim`: the slice of `s` left once the white space at
   * both ends is removed.
   */
  function Trim(s: string): (r: string)
    ensures r == [] <==> forall i | 0 <= i < |s| :: IsSpace(s[i])
    ensures var k := LeadingSpace(s); k + |r| <= |s| && r == s[k..k + |r|]
    ensures forall i | LeadingSpace(s) + |r| <= i < |s| :: IsSpace(s[i])
    ensures r == [] || (!IsSpace(r[0]) && !IsSpace(r[|r| - 1]))
  {
    var k := LeadingSpace(s);
    if k == |s| then []
    else
      var n := TrailingSpace(s);
      assert !IsSpace(s[k]);
      s[k..|s| - n]
  }

  /** The elements of `xs` joined by `sep`, as `Array.prototype.join` does. */
  function Join(xs: seq<string>, sep: string): string {
    if xs == [] then ""
    else if |xs| == 1 then xs[0]
    else Join(xs[..|xs| - 1], sep) + sep + xs[|xs| - 1]
  }

  /**
   * JavaScript's white space and line terminators (the `\s` class of
   * regular expressions, and what `String.prototype.trim` removes).
   */
  predicate IsSpace(c: char) {
    var n := c as int;
    (9 <= n <= 13) || n == 32 || n == 0xA0 || n == 0x1680 || (0x2000 <= n <= 0x200A)
    || n == 0x2028 || n == 0x2029 || n == 0x202F || n == 0x205F || n == 0x3000 || n == 0xFEFF
  }
}

=== FILE: schedule_queries.dfy ===
/**
 * `AppointmentService.getDoctorSchedule` and `getPatientAppointments`:
 * queries that keep the rows passing a filter and order them by
 * `start_time`, ascending for a doctor's schedule and descending for a
 * patient's list.
 */
module ScheduleQueries {
  import opened Instants
  import opened Js
  import opened AppointmentTable

  /** The sort key: the row's `start_time`. */
  function Key(r: Row): Time {
    SqlTime(Col(r, "start_time"))
  }

  /**
   * The order assumed for `orderBy('start_time')`: times by value, with
   * NULL (and unreadable) keys placed before every time. Where NULLs go is
   * up to the database.
   */
  predicate TimeLe(a: Time, b: Time) {
    a.Invalid? || (b.At? && a.ms <= b.ms)
  }

  /** `x` may precede `y`: ascending or descending by key. */
  predicate InOrder(x: Row, y: Row, ascending: bool) {
    if ascending then TimeLe(Key(x), Key(y)) else TimeLe(Key(y), Key(x))
  }

  predicate Sorted(s: seq<Row>, ascending: bool) {
    forall i, j | 0 <= i < j < |s| :: InOrder(s[i], s[j], ascending)
  }

  /** The order is total and transitive. */
  lemma InOrderTotalTransitive(x: Row, y: Row, z: Row, ascending: bool)
    ensures InOrder(x, y, ascending) || InOrder(y, x, ascending)
    ensures InOrder(x, y, ascending) && InOrder(y, z, ascending) ==> InOrder(x, z, ascending)
  {
  }

  /** A row that may precede every element of a sorted sequence may head it. */
  lemma PrependSorted(a: Row, s: seq<Row>, ascending: bool)
    requires Sorted(s, ascending)
    requires forall y | y in s :: InOrder(a, y, ascending)
    ensures Sorted([a] + s, ascending)
  {
    var t := [a] + s;
    forall i, j | 0 <= i < j < |t| ensures InOrder(t[i], t[j], ascending) {
      if i == 0 {
        assert t[j] == s[j - 1] && s[j - 1] in s;
      } else {
        assert t[i] == s[i - 1] && t[j] == s[j - 1];
      }
    }
  }

  /** A row that may precede the head of a sorted sequence may precede all of it. */
  lemma BeforeHead(x: Row, s: seq<Row>, ascending: bool)
    requires Sorted(s, ascending) && s != [] && InOrder(x, s[0], ascending)
    ensures forall y | y in s :: InOrder(x, y, ascending)
  {
    forall y | y in s ensures InOrder(x, y, ascending) {
      var j :| 0 <= j < |s| && s[j] == y;
      if j > 0 {
        assert InOrder(s[0], s[j], ascending);
      }
      InOrderTotalTransitive(x, s[0], y, ascending);
    }
  }

  /** The tail of a sorted sequence is sorted. */
  lemma TailSorted(s: seq<Row>, ascending: bool)
    requires Sorted(s, ascending) && s != []
    ensures Sorted(s[1..], ascending)
  {
    forall i, j | 0 <= i < j < |s[1..]| ensures InOrder(s[1..][i], s[1..][j], ascending) {
      assert s[1..][i] == s[i + 1] && s[1..][j] == s[j + 1];
    }
  }

  /**
   * When `x` goes after the head, the head may precede everything the tail
   * becomes once `x` is inserted into it.
   */
  lemma HeadBeforeRest(x: Row, s: seq<Row>, rest: seq<Row>, ascending: bool)
    requires Sorted(s, ascending) && s != [] && !InOrder(x, s[0], ascending)
    requires multiset(rest) == multiset(s[1..]) + multiset{x}
    ensures forall y | y in rest :: InOrder(s[0], y, ascending)
  {
    forall y | y in rest ensures InOrder(s[0], y, ascending) {
      assert y in multiset(rest);
      if y == x {
        InOrderTotalTransitive(x, s[0], s[0], ascending);
      } else {
        assert y in multiset(s[1..]);
        var j :| 0 <= j < |s[1..]| && s[1..][j] == y;
        assert s[1..][j] == s[j + 1];
      }
    }
  }

  /** `x` placed before the first element it may precede. */
  function Insert(x: Row, s: seq<Row>, ascending: bool): (r: seq<Row>)
    requires Sorted(s, ascending)
    ensures Sorted(r, ascending)
    ensures multiset(r) == multiset(s) + multiset{x}
  {
    if s == [] then [x]
    else if InOrder(x, s[0], ascending) then
      BeforeHead(x, s, ascending);
      PrependSorted(x, s, ascending);
      [x] + s
    else
      TailSorted(s, ascending);
      var rest := Insert(x, s[1..], ascending);
      assert s == [s[0]] + s[1..];
      HeadBeforeRest(x, s, rest, ascending);
      PrependSorted(s[0], rest, ascending);
      [s[0]] + rest
  }

  /** Insertion sort on `start_time`; rows with equal keys keep their table order. */
  function Sort(s: seq<Row>, ascending: bool): (r: seq<Row>)
    ensures Sorted(r, ascending)
    ensures multiset(r) == multiset(s)
  {
    if s == [] then []
    else
      assert s == [s[0]] + s[1..];
      Insert(s[0], Sort(s[1..], ascending), ascending)
  }

  /** The rows that `keep` accepts, in table order. */
  function Filter(s: seq<Row>, keep: Row -> bool): (r: seq<Row>)
    ensures forall x | keep(x) :: multiset(r)[x] == multiset(s)[x]
    ensures forall x | !keep(x) :: multiset(r)[x] == 0
  {
    if s == [] then []
    else
      assert s == [s[0]] + s[1..];
      (if keep(s[0]) then [s[0]] else []) + Filter(s[1..], keep)
  }

  /** A row of the doctor's schedule: that doctor, not cancelled, starting within [lo, hi]. */
  predicate InSchedule(r: Row, doctorId: Value, lo: Time, hi: Time) {
    SqlEq(Col(r, "doctor_id"), doctorId) && NotCancelled(r) && Between(Key(r), lo, hi)
  }

  /**
   * `getDoctorSchedule(doctorId, startDate, endDate)`: exactly the doctor's
   * non-cancelled rows starting within the two dates, bounds included, in
   * ascending start order.
   */
  function DoctorSchedule(rows: seq<Row>, doctorId: Value, startDate: Value, endDate: Value): (r: seq<Row>)
    ensures Sorted(r, true)
    ensures forall x | InSchedule(x, doctorId, ToDate(startDate), ToDate(endDate)) :: multiset(r)[x] == multiset(rows)[x]
    ensures forall x | !InSchedule(x, doctorId, ToDate(startDate), ToDate(endDate)) :: multiset(r)[x] == 0
  {
    var lo := ToDate(startDate);
    var hi := ToDate(endDate);
    Sort(Filter(rows, x => InSchedule(x, doctorId, lo, hi)), true)
  }

  /**
   * A row of the patient's list: that patient; the given status when a
   * truthy one is given; a start within the range only when both bounds
   * are truthy.
   */
  predicate InPatientList(r: Row, patientId: Value, options: map<string, Value>) {
    var status := Prop(options, "status");
    var startDate := Prop(options, "startDate");
    var endDate := Prop(options, "endDate");
    SqlEq(Col(r, "patient_id"), patientId)
    && (!Truthy(status) || SqlEq(Col(r, "status"), status))
    && (!(Truthy(startDate) && Truthy(endDate)) || Between(Key(r), ToDate(startDate), ToDate(endDate)))
  }

  /**
   * `getPatientAppointments(patientId, options)`: exactly the rows of the
   * patient that pass the optional filters, latest start first.
   */
  function PatientAppointments(rows: seq<Row>, patientId: Value, options: map<string, Value>): (r: seq<Row>)
    ensures Sorted(r, false)
    ensures forall x | InPatientList(x, patientId, options) :: multiset(r)[x] == multiset(rows)[x]
    ensures forall x | !InPatientList(x, patientId, options) :: multiset(r)[x] == 0
  {
    Sort(Filter(rows, x => InPatientList(x, patientId, options)), false)
  }

  /** Without options every row of the patient is listed; a falsy status or one bound alone filters nothing. */
  lemma OptionsAreOptional(r: Row, patientId: Value, options: map<string, Value>)
    requires !Truthy(Prop(options, "status"))
    requires !Truthy(Prop(options, "startDate")) || !Truthy(Prop(options, "endDate"))
    ensures InPatientList(r, patientId, options) <==> SqlEq(Col(r, "patient_id"), patientId)
  {
  }

  /** The head of a sorted sequence may precede each of its elements. */
  lemma HeadFirst(s: seq<Row>, ascending: bool)
    requires Sorted(s, ascending) && s != []
    ensures forall x | x in s :: InOrder(s[0], x, ascending)
  {
    forall x | x in s ensures InOrder(s[0], x, ascending) {
      var j :| 0 <= j < |s| && s[j] == x;
      if j > 0 {
        assert InOrder(s[0], s[j], ascending);
      }
    }
  }

  /** The first row of a patient's list starts no earlier than any other; the schedule's first no later. */
  lemma FirstIsExtreme(rows: seq<Row>, patientId: Value, options: map<string, Value>,
                       doctorId: Value, startDate: Value, endDate: Value)
    ensures var list := PatientAppointments(rows, patientId, options);
            forall x | x in list :: TimeLe(Key(x), Key(list[0]))
    ensures var schedule := DoctorSchedule(rows, doctorId, startDate, endDate);
            forall x | x in schedule :: TimeLe(Key(schedule[0]), Key(x))
  {
    var list := PatientAppointments(rows, patientId, options);
    if list != [] {
      HeadFirst(list, false);
    }
    var schedule := DoctorSchedule(rows, doctorId, startDate, endDate);
    if schedule != [] {
      HeadFirst(schedule, true);
    }
  }

  /**
   * Every row of a schedule lies within the requested dates, so none exists
   * when they are Invalid (the model reads an Invalid bound as matching no row).
   */
  lemma InvalidRangeGivesEmptySchedule(rows: seq<Row>, doctorId: Value, startDate: Value, endDate: Value)
    requires ToDate(startDate).Invalid? || ToDate(endDate).Invalid?
    ensures DoctorSchedule(rows, doctorId, startDate, endDate) == []
  {
    var schedule := DoctorSchedule(rows, doctorId, startDate, endDate);
    assert multiset(schedule) == multiset{};
  }
}

=== FILE: service_table.dfy ===
/**
 * The `appointments` table behind `AppointmentService`, as the service sees
 * it through its database handle: rows in insertion order, each with an
 * integer primary key and its columns, and the SQL comparisons the
 * service's queries apply to them.
 */
module AppointmentTable {
  import opened Instants
  import opened Js

  /** A stored appointment: its primary key and its column values. */
  datatype Row = Row(id: int, cols: map<string, Value>)

  /** The columns the service writes; every row has them, NULL when never written. */
  const Columns: set<string> := {"patient_id", "doctor_id", "start_time", "end_time", "status", "notes",
                                  "created_at", "updated_at", "cancellation_reason", "cancelled_at"}

  /** A column of a row, as a query sees it: an unwritten column is NULL. */
  function Col(r: Row, key: string): (v: Value)
    ensures key !in r.cols ==> v == Null
  {
    if key in r.cols then r.cols[key] else Null
  }

  /**
   * `row.key` on the plain object a query returns: a column reads its value
   * (NULL when never written), any other name is `undefined`.
   */
  function Field(r: Row, key: string): (v: Value)
    ensures key in r.cols ==> v == r.cols[key]
    ensures key !in r.cols ==> v == (if key in Columns then Null else Undefined)
  {
    if key in r.cols then r.cols[key] else if key in Columns then Null else Undefined
  }

  /** A value as stored: the driver writes `undefined` as NULL. */
  function Stored(v: Value): (s: Value)
    ensures s != Undefined
    ensures v != Undefined ==> s == v
  {
    if v.Undefined? then Null else v
  }

  /**
   * A column compared with a date binding: NULL is unknown and matches no
   * comparison; any other value is read as a date.
   */
  function SqlTime(v: Value): (t: Time)
    ensures v.Null? ==> t.Invalid?
  {
    if v.Null? then Invalid else ToDate(v)
  }

  /** `where(column, value)`: a `null` binding asks for IS NULL; otherwise plain equality, never true on NULL. */
  predicate SqlEq(c: Value, v: Value) {
    if v.Null? then c.Null? else c == v && !c.Null?
  }

  /** `where('status', '!=', 'cancelled')`: a NULL status is unknown and does not pass. */
  predicate NotCancelled(r: Row) {
    var s := Col(r, "status");
    !s.Null? && s != Str("cancelled")
  }

  /** `whereBetween(column, [lo, hi])`: both bounds inclusive. */
  predicate Between(t: Time, lo: Time, hi: Time) {
    NotAfter(lo, t) && NotAfter(t, hi)
  }

  /** Primary keys are positive and strictly increasing in insertion order. */
  predicate KeysIncreasing(rows: seq<Row>) {
    (forall i | 0 <= i < |rows| :: rows[i].id >= 1)
    && forall i, j | 0 <= i < j < |rows| :: rows[i].id < rows[j].id
  }

  /** `findById(id)`: the row with that key. */
  function FindById(rows: seq<Row>, id: int): (r: Option<Row>)
    ensures r.Some? <==> exists i | 0 <= i < |rows| :: rows[i].id == id
    ensures r.Some? ==> r.value in rows && r.value.id == id
  {
    if rows == [] then None
    else if rows[0].id == id then Some(rows[0])
    else FindById(rows[1..], id)
  }

  /**
   * The columns after `update(id, patch)`: every defined value of the patch
   * overwrites its column (the driver skips `undefined` ones); the key
   * itself is never rewritten.
   */
  function Merge(cols: map<string, Value>, patch: map<string, Value>): (m: map<string, Value>)
    ensures forall k | k in patch && k != "id" && patch[k] != Undefined :: k in m && m[k] == patch[k]
    ensures forall k | k in cols && !(k in patch && k != "id" && patch[k] != Undefined) :: k in m && m[k] == cols[k]
    ensures m.Keys == cols.Keys + set k | k in patch && k != "id" && patch[k] != Undefined
  {
    map k | k in cols.Keys + (set k | k in patch && k != "id" && patch[k] != Undefined)
      :: if k in patch && k != "id" && patch[k] != Undefined then patch[k] else cols[k]
  }

  /** `update(id, patch)`: the row with key `id` merged with the patch; every other row as it was. */
  function UpdateRows(rows: seq<Row>, id: int, patch: map<string, Value>): (r: seq<Row>)
    ensures |r| == |rows|
    ensures forall i | 0 <= i < |rows| :: r[i].id == rows[i].id
    ensures forall i | 0 <= i < |rows| ::
              r[i].cols == if rows[i].id == id then Merge(rows[i].cols, patch) else rows[i].cols
  {
    if rows == [] then []
    else [if rows[0].id == id then Row(id, Merge(rows[0].cols, patch)) else rows[0]] + UpdateRows(rows[1..], id, patch)
  }

  /** Updating keeps the keys, so `findById` afterwards finds the merged row. */
  lemma {:induction false} UpdateThenFind(rows: seq<Row>, id: int, patch: map<string, Value>)
    requires KeysIncreasing(rows)
    ensures KeysIncreasing(UpdateRows(rows, id, patch))
    ensures var before := FindById(rows, id);
            FindById(UpdateRows(rows, id, patch), id)
            == if before.Some? then Some(Row(id, Merge(before.value.cols, patch))) else None
  {
    if rows != [] {
      assert KeysIncreasing(rows[1..]);
      UpdateThenFind(rows[1..], id, patch);
      assert UpdateRows(rows, id, patch)[1..] == UpdateRows(rows[1..], id, patch);
    }
  }

  /** Every key is below `n`. */
  predicate KeysBelow(rows: seq<Row>, n: int) {
    forall i | 0 <= i < |rows| :: rows[i].id < n
  }

  /** Appending a row under a fresh, larger key keeps the keys increasing. */
  lemma AppendFresh(rows: seq<Row>, r: Row)
    requires KeysIncreasing(rows) && KeysBelow(rows, r.id) && r.id >= 1
    ensures KeysIncreasing(rows + [r]) && KeysBelow(rows + [r], r.id + 1)
  {
  }

  /** Updating keeps every key where it was, so the keys stay increasing and below `n`. */
  lemma UpdateKeepsKeys(rows: seq<Row>, id: int, patch: map<string, Value>, n: int)
    requires KeysIncreasing(rows) && KeysBelow(rows, n)
    ensures KeysIncreasing(UpdateRows(rows, id, patch)) && KeysBelow(UpdateRows(rows, id, patch), n)
  {
  }
}

=== FILE: service_validation.dfy ===
/**
 * `AppointmentService.validateAppointmentData(data, isUpdate)`: every
 * failing check adds a message to a list, and the list, when not empty, is
 * raised as one error. The service's status vocabulary is scheduled,
 * completed, cancelled and no_show.
 */
module AppointmentValidation {
  import opened Instants
  import opened Js

  const RequiredFields: seq<string> := ["patient_id", "doctor_id", "start_time", "end_time"]
  const ServiceStatuses: seq<Value> := [Str("scheduled"), Str("completed"), Str("cancelled"), Str("no_show")]

  const BadStart := "La fecha de inicio no es válida"
  const PastStart := "La cita no puede ser en una fecha pasada"
  const EndNotAfterStart := "La fecha de fin debe ser posterior a la de inicio"
  const BadServiceStatus := "Estado no válido. Los valores permitidos son: scheduled, completed, cancelled, no_show"
  const ValidationPrefix := "Error de validación: "

  function RequiredMessage(field: string): string {
    "El campo " + field + " es requerido"
  }

  /** Different fields give different messages. */
  lemma RequiredMessageInjective(f: string, g: string)
    requires RequiredMessage(f) == RequiredMessage(g)
    ensures f == g
  {
    assert |f| == |g|;
    assert f == RequiredMessage(f)[9..9 + |f|];
    assert g == RequiredMessage(g)[9..9 + |g|];
  }

  /** `s.replace('_', '')` with a string pattern: only the first underscore goes. */
  function RemoveFirstUnderscore(s: string): string {
    if s == [] then []
    else if s[0] == '_' then s[1..]
    else [s[0]] + RemoveFirstUnderscore(s[1..])
  }

  /** With the first underscore at `k`, the result is the text around it. */
  lemma {:induction false} RemoveFirstUnderscoreAt(s: string, k: int)
    requires 0 <= k < |s| && s[k] == '_' && forall j | 0 <= j < k :: s[j] != '_'
    ensures RemoveFirstUnderscore(s) == s[..k] + s[k + 1..]
  {
    if k > 0 {
      RemoveFirstUnderscoreAt(s[1..], k - 1);
      assert s[..k] == [s[0]] + s[1..][..k - 1];
      assert s[k + 1..] == s[1..][k..];
    }
  }

  /** Without an underscore the text is unchanged. */
  lemma {:induction false} RemoveFirstUnderscoreNone(s: string)
    requires '_' !in s
    ensures RemoveFirstUnderscore(s) == s
  {
    if s != [] {
      assert '_' !in s[1..] by {
        assert forall j | 0 <= j < |s[1..]| :: s[1..][j] == s[j + 1];
      }
      RemoveFirstUnderscoreNone(s[1..]);
      assert s == [s[0]] + s[1..];
    }
  }

  /** `field.replace('_', '')` for a field whose only underscore is at `k`. */
  lemma SplitAtUnderscore(field: string, k: int, before: string, after: string)
    requires 0 <= k < |field| && field[k] == '_' && forall j | 0 <= j < k :: field[j] != '_'
    requires before == field[..k] && after == field[k + 1..]
    ensures RemoveFirstUnderscore(field) == before + after
  {
    RemoveFirstUnderscoreAt(field, k);
  }

  /** The key accepted in place of `patient_id`. */
  lemma PatientIdAlternative()
    ensures RemoveFirstUnderscore("patient_id") == "patientid"
  {
    var p := "patient_id";
    assert p[0] != '_' && p[1] != '_' && p[2] != '_' && p[3] != '_' && p[4] != '_' && p[5] != '_' && p[6] != '_';
    assert p[..7] == "patient" && p[8..] == "id";
    SplitAtUnderscore(p, 7, "patient", "id");
  }

  /** The key accepted in place of `doctor_id`. */
  lemma DoctorIdAlternative()
    ensures RemoveFirstUnderscore("doctor_id") == "doctorid"
  {
    var d := "doctor_id";
    assert d[0] != '_' && d[1] != '_' && d[2] != '_' && d[3] != '_' && d[4] != '_' && d[5] != '_';
    assert d[..6] == "doctor" && d[7..] == "id";
    SplitAtUnderscore(d, 6, "doctor", "id");
  }

  /**
   * A required field is present only under its own key or that key with
   * its first underscore removed (`patientid`); a camelCase key does not count.
   */
  predicate Present(data: map<string, Value>, field: string) {
    field in data || RemoveFirstUnderscore(field) in data
  }

  /** The messages of the missing fields among `fields`, in their order. */
  function MissingFields(data: map<string, Value>, fields: seq<string>): (r: seq<string>)
    ensures |r| <= |fields|
    ensures r == [] <==> forall f | f in fields :: Present(data, f)
    ensures forall m | m in r :: exists f | f in fields :: !Present(data, f) && m == RequiredMessage(f)
    ensures forall f | f in fields && !Present(data, f) :: RequiredMessage(f) in r
  {
    if fields == [] then []
    else
      var init := MissingFields(data, fields[..|fields| - 1]);
      var last := fields[|fields| - 1];
      assert forall f | f in fields :: f in fields[..|fields| - 1] || f == last;
      init + if Present(data, last) then [] else [RequiredMessage(last)]
  }

  /** One more field: its message is added when it is missing. */
  lemma MissingFieldsStep(data: map<string, Value>, fields: seq<string>, i: int)
    requires 0 <= i < |fields|
    ensures MissingFields(data, fields[..i + 1])
            == MissingFields(data, fields[..i]) + if Present(data, fields[i]) then [] else [RequiredMessage(fields[i])]
  {
    assert fields[..i + 1][..i] == fields[..i];
  }

  /** `data.start_time || data.startTime`. */
  function StartOf(data: map<string, Value>): Value {
    Or(Prop(data, "start_time"), Prop(data, "startTime"))
  }

  /** `data.end_time || data.endTime`. */
  function EndOf(data: map<string, Value>): Value {
    Or(Prop(data, "end_time"), Prop(data, "endTime"))
  }

  /** The start checks at instant `now`: an unparseable start, else a start before now. */
  function StartErrors(data: map<string, Value>, now: int): (r: seq<string>)
    ensures r == [] <==> !Truthy(StartOf(data)) || (ToDate(StartOf(data)).At? && !Before(ToDate(StartOf(data)), At(now)))
    ensures |r| <= 1
  {
    var startTime := StartOf(data);
    if !Truthy(startTime) then []
    else
      var start := ToDate(startTime);
      if start.Invalid? then [BadStart]
      else if Before(start, At(now)) then [PastStart]
      else []
  }

  /** `end <= start` on the two Dates, when both values are given (false if either is Invalid). */
  function OrderErrors(data: map<string, Value>): (r: seq<string>)
    ensures r == [] <==> !(Truthy(StartOf(data)) && Truthy(EndOf(data))
                           && NotAfter(ToDate(EndOf(data)), ToDate(StartOf(data))))
    ensures r != [] ==> r == [EndNotAfterStart]
  {
    if Truthy(StartOf(data)) && Truthy(EndOf(data)) && NotAfter(ToDate(EndOf(data)), ToDate(StartOf(data))) then
      [EndNotAfterStart]
    else []
  }

  /** A truthy status outside the service's vocabulary. */
  function StatusErrors(data: map<string, Value>): (r: seq<string>)
    ensures r == [] <==> !Truthy(Prop(data, "status")) || Prop(data, "status") in ServiceStatuses
    ensures r != [] ==> r == [BadServiceStatus]
  {
    var status := Prop(data, "status");
    if Truthy(status) && status !in ServiceStatuses then [BadServiceStatus] else []
  }

  /** Every message of the validation, in check order. */
  function ValidationErrors(data: map<string, Value>, isUpdate: bool, now: int): seq<string> {
    (if isUpdate then [] else MissingFields(data, RequiredFields))
    + StartErrors(data, now) + OrderErrors(data) + StatusErrors(data)
  }

  /** The outcome: nothing, or one error carrying every message joined by "; ". */
  function Validation(data: map<string, Value>, isUpdate: bool, now: int): Result<bool> {
    var errors := ValidationErrors(data, isUpdate, now);
    if |errors| > 0 then Err(ValidationPrefix + Join(errors, "; ")) else Ok(true)
  }

  /** The loop of `validateAppointmentData` over the required fields, one by one. */
  method CollectMissing(data: map<string, Value>) returns (errors: seq<string>)
    ensures errors == MissingFields(data, RequiredFields)
  {
    errors := [];
    for i := 0 to |RequiredFields|
      invariant errors == MissingFields(data, RequiredFields[..i])
    {
      var field := RequiredFields[i];
      MissingFieldsStep(data, RequiredFields, i);
      if !(field in data) && !(RemoveFirstUnderscore(field) in data) {
        errors := errors + [RequiredMessage(field)];
      }
    }
    assert RequiredFields[..|RequiredFields|] == RequiredFields;
  }

  /** The checks of `validateAppointmentData` in order: required fields (on create), start, order, status. */
  method ValidateAppointmentData(data: map<string, Value>, isUpdate: bool, now: int) returns (r: Result<bool>)
    ensures r == Validation(data, isUpdate, now)
  {
    var errors: seq<string> := [];
    if !isUpdate {
      errors := CollectMissing(data);
    }
    ghost var missing := errors;
    var startTime := StartOf(data);
    var endTime := EndOf(data);
    if Truthy(startTime) {
      var start := ToDate(startTime);
      if start.Invalid? {
        errors := errors + [BadStart];
      } else if Before(start, At(now)) {
        errors := errors + [PastStart];
      }
    }
    assert errors == missing + StartErrors(data, now);
    if Truthy(startTime) && Truthy(endTime) {
      var start := ToDate(startTime);
      var end := ToDate(endTime);
      if NotAfter(end, start) {
        errors := errors + [EndNotAfterStart];
      }
    }
    assert errors == missing + StartErrors(data, now) + OrderErrors(data);
    var status := Prop(data, "status");
    if Truthy(status) && status !in ServiceStatuses {
      errors := errors + [BadServiceStatus];
    }
    assert errors == missing + StartErrors(data, now) + OrderErrors(data) + StatusErrors(data);
    if |errors| > 0 {
      return Err(ValidationPrefix + Join(errors, "; "));
    }
    r := Ok(true);
  }

  /**
   * Validation passes exactly when no check fails: on create every required
   * field is present, a given start parses and is not in the past, a given
   * end is after a given start, and a given status is one of the service's.
   */
  lemma ValidationPassesIff(data: map<string, Value>, isUpdate: bool, now: int)
    ensures Validation(data, isUpdate, now).Ok?
            <==> (isUpdate || forall f | f in RequiredFields :: Present(data, f))
                 && (!Truthy(StartOf(data)) || (ToDate(StartOf(data)).At? && !Before(ToDate(StartOf(data)), At(now))))
                 && !(Truthy(StartOf(data)) && Truthy(EndOf(data)) && NotAfter(ToDate(EndOf(data)), ToDate(StartOf(data))))
                 && (!Truthy(Prop(data, "status")) || Prop(data, "status") in ServiceStatuses)
    ensures Validation(data, isUpdate, now).Err? ==> Validation(data, isUpdate, now).message[..|ValidationPrefix|] == ValidationPrefix
  {
  }

  /** On create, a camelCase key alone leaves its field missing and validation fails naming it. */
  lemma CamelCaseKeyIsMissing(data: map<string, Value>, now: int)
    requires "patientId" in data && "patient_id" !in data && "patientid" !in data
    ensures RequiredMessage("patient_id") in ValidationErrors(data, false, now)
    ensures Validation(data, false, now).Err?
  {
    PatientIdAlternative();
    assert !Present(data, "patient_id");
    assert "patient_id" in RequiredFields;
  }

  /** The key with its underscore removed counts as present. */
  lemma UnderscorelessKeyIsPresent(data: map<string, Value>)
    requires "doctorid" in data
    ensures Present(data, "doctor_id")
  {
    DoctorIdAlternative();
  }

  /** On update the required-field check is skipped: an empty patch passes. */
  lemma UpdateSkipsRequiredFields(now: int)
    ensures Validation(map[], true, now) == Ok(true)
    ensures Validation(map[], false, now).Err?
  {
    assert !Present(map[], "patient_id");
    assert "patient_id" in RequiredFields;
  }

  /** Every failing check contributes: a start in the past with an earlier end gives both messages, in order. */
  lemma MessagesAreCollected(now: int, start: int, end: int)
    requires -MaxTime <= end <= start < now && start <= MaxTime && start != 0 && end != 0
    ensures var data := map["start_time" := Num(start), "end_time" := Num(end)];
            Validation(data, true, now) == Err(ValidationPrefix + PastStart + "; " + EndNotAfterStart)
  {
    var data := map["start_time" := Num(start), "end_time" := Num(end)];
    assert StartOf(data) == Num(start) && EndOf(data) == Num(end);
    assert ToDate(Num(start)) == At(start) && ToDate(Num(end)) == At(end);
    assert StartErrors(data, now) == [PastStart];
    assert OrderErrors(data) == [EndNotAfterStart];
    assert ValidationErrors(data, true, now) == [PastStart, EndNotAfterStart];
    JoinTwo(PastStart, EndNotAfterStart, "; ");
  }

  /** Two messages joined: the first, the separator, the second. */
  lemma JoinTwo(a: string, b: string, sep: string)
    ensures Join([a, b], sep) == a + sep + b
  {
    assert [a, b][..1] == [a];
  }
}

=== FILE: user_model.dfy ===
/** The `User` entity and `UserFactory`. */
module UserModel {
  import opened Js

  /** A user as the constructor stores it: every field exactly as given. */
  datatype User = User(id: Value, gmail: Value, nombre: Value, role: Value)

  const Roles: seq<Value> := [Str("admin"), Str("medico"), Str("paciente")]

  const BadEmail := "Correo electrónico inválido"
  const BadName := "Nombre inválido (mínimo 2 caracteres)"
  const BadRole := "Rol inválido (debe ser admin, medico o paciente)"

  /**
   * `validate()`: an e-mail that is truthy and holds '@', then a name that
   * is truthy and not shorter than two UTF-16 code units, then a known
   * role; the first failing check raises. A truthy e-mail that is not a
   * string has no `includes` and raises a TypeError. A plain object's
   * `length` property is compared like a string's length; any other
   * non-string has none, and `undefined < 2` is false, so it passes.
   */
  function Validate(u: User): (r: Result<bool>)
    ensures r.Ok? <==> u.gmail.Str? && '@' in u.gmail.s && Truthy(u.nombre)
                        && !ShorterThan(u.nombre, 2) && u.role in Roles
    ensures r.Ok? ==> r.value
    ensures !Truthy(u.gmail) ==> r == Err(BadEmail)
    ensures u.gmail.Str? && '@' !in u.gmail.s ==> r == Err(BadEmail)
    ensures (Truthy(u.gmail) && !u.gmail.Str?) ==> r == Err(NotAFunction)
    ensures (u.gmail.Str? && '@' in u.gmail.s && !(Truthy(u.nombre) && !ShorterThan(u.nombre, 2)))
            ==> r == Err(BadName)
    ensures (u.gmail.Str? && '@' in u.gmail.s && Truthy(u.nombre) && !ShorterThan(u.nombre, 2)
             && u.role !in Roles)
            ==> r == Err(BadRole)
  {
    if !Truthy(u.gmail) then Err(BadEmail)
    else
      match Includes(u.gmail, '@')
      case Err(e) => Err(e)
      case Ok(hasAt) =>
        if !hasAt then Err(BadEmail)
        else if !Truthy(u.nombre) || ShorterThan(u.nombre, 2) then Err(BadName)
        else if u.role !in Roles then Err(BadRole)
        else Ok(true)
  }

  /** The keys of the serialised form. */
  const JsonKeys: set<string> := {"id", "gmail", "nombre", "role"}

  /** `toJSON()`: the entity's `id` and the three user fields, and no other key. */
  function ToJson(u: User): (j: map<string, Value>)
    ensures j.Keys == JsonKeys
    ensures j["id"] == u.id && j["gmail"] == u.gmail && j["nombre"] == u.nombre && j["role"] == u.role
  {
    map["id" := u.id, "gmail" := u.gmail, "nombre" := u.nombre, "role" := u.role]
  }

  /**
   * `UserFactory.createUser(data)`: a truthy `data.id` is kept, otherwise
   * the fresh identifier (`crypto.randomUUID()`, supplied by the caller) is
   * used; a falsy role becomes 'paciente'.
   */
  function CreateUser(data: map<string, Value>, freshId: string): (u: User)
    ensures u.id == (if Truthy(Prop(data, "id")) then Prop(data, "id") else Str(freshId))
    ensures u.gmail == Prop(data, "gmail") && u.nombre == Prop(data, "nombre")
    ensures u.role == (if Truthy(Prop(data, "role")) then Prop(data, "role") else Str("paciente"))
  {
    User(Or(Prop(data, "id"), Str(freshId)), Prop(data, "gmail"), Prop(data, "nombre"),
         Or(Prop(data, "role"), Str("paciente")))
  }

  /** The factory's default role passes the role check. */
  lemma DefaultRoleIsValid(data: map<string, Value>, freshId: string)
    requires !Truthy(Prop(data, "role"))
    ensures CreateUser(data, freshId).role in Roles
  {
  }

  /** A user built by the factory from valid fields and no role validates, as a patient. */
  lemma FactoryPatientValidates(data: map<string, Value>, freshId: string, email: string, name: string)
    requires Prop(data, "gmail") == Str(email) && '@' in email
    requires Prop(data, "nombre") == Str(name) && |name| >= 2
    requires !Truthy(Prop(data, "role"))
    ensures Validate(CreateUser(data, freshId)) == Ok(true)
    ensures CreateUser(data, freshId).role == Str("paciente")
  {
  }

  /** Building a user from its own JSON gives the user back, when its id and role are truthy. */
  lemma JsonRoundTrip(u: User, freshId: string)
    requires Truthy(u.id) && Truthy(u.role)
    ensures CreateUser(ToJson(u), freshId) == u
  {
  }
}

=== FILE: validation_utils.dfy ===
/**
 * `ValidationUtils`: the e-mail test, the non-empty test and the login-data
 * guard shared by the login pages.
 */
module ValidationUtils {
  import opened Js

  /** No white space in `s[i..j]`. */
  predicate NonSpace(s: string, i: int, j: int)
    requires 0 <= i <= j <= |s|
  {
    forall k | i <= k < j :: !IsSpace(s[k])
  }

  /**
   * The unanchored regular expression `\S+@\S+\.\S+` matches somewhere in
   * `s`: there is an '@' at `p` with a non-space just before it, a '.' at `q`
   * reached from `p + 1` by a non-empty run of non-space characters, and a
   * non-space just after `q`. (A match needs no more than these: the `\S+`
   * before '@' and after '.' can be a single character.)
   */
  predicate EmailShapeAt(s: string, p: int, q: int)
    requires 0 < p && p + 1 < q && q + 1 < |s|
  {
    s[p] == '@' && s[q] == '.' && !IsSpace(s[p - 1]) && NonSpace(s, p + 1, q) && !IsSpace(s[q + 1])
  }

  predicate HasEmailShape(s: string) {
    exists p, q | 0 < p && p + 1 < q && q + 1 < |s| :: EmailShapeAt(s, p, q)
  }

  /** `isEmail(email)`: a string in which the pattern matches. */
  function IsEmail(v: Value): (r: bool)
    ensures r <==> v.Str? && HasEmailShape(v.s)
    ensures r ==> '@' in v.s && '.' in v.s
  {
    v.Str? && HasEmailShape(v.s)
  }

  /** A word the pattern's `\S+` can match: non-empty, no white space. */
  predicate Word(w: string) {
    w != [] && NonSpace(w, 0, |w|)
  }

  /** Any text holding `x@y.z` for words `x`, `y`, `z` passes `isEmail`. */
  lemma ComposedEmailAccepted(pre: string, x: string, y: string, z: string, post: string)
    requires Word(x) && Word(y) && Word(z)
    ensures IsEmail(Str(pre + x + "@" + y + "." + z + post))
  {
    var s := pre + x + "@" + y + "." + z + post;
    var p := |pre| + |x|;
    var q := p + 1 + |y|;
    assert s[p - 1] == x[|x| - 1];
    assert s[p] == '@';
    forall k | p + 1 <= k < q ensures !IsSpace(s[k]) {
      assert s[k] == y[k - p - 1];
    }
    assert s[q] == '.';
    assert s[q + 1] == z[0];
    assert EmailShapeAt(s, p, q);
  }

  lemma SampleEmails()
    ensures IsEmail(Str("a@b.c"))
    ensures !IsEmail(Str("a@b"))
    ensures !IsEmail(Num(5))
  {
    assert EmailShapeAt("a@b.c", 1, 3);
    assert '.' !in "a@b";
  }

  /**
   * `isNotEmpty(value)`: not `null` or `undefined`, and `String(value)`
   * trimmed is non-empty. The string form of a boolean, a number, a Date or
   * a plain object is never blank, so only text can fail the last test.
   */
  function IsNotEmpty(v: Value): (r: bool)
    ensures r ==> v != Null && v != Undefined
    ensures v.Str? ==> (r <==> exists i | 0 <= i < |v.s| :: !IsSpace(v.s[i]))
  {
    match v
    case Undefined => false
    case Null => false
    case Str(s) => Trim(s) != []
    case _ => true
  }

  /**
   * `validateLoginData(data)`: the first failing check raises; all passing
   * returns true.
   */
  function ValidateLoginData(data: Value): (r: Result<bool>)
    ensures r.Ok? <==> Truthy(data) && TypeOf(data) == "object"
                        && IsEmail(Get(data, "email")) && IsNotEmpty(Get(data, "password"))
    ensures r.Ok? ==> r.value
    ensures !(Truthy(data) && TypeOf(data) == "object") ==> r == Err("Datos inválidos")
    ensures (Truthy(data) && TypeOf(data) == "object" && !IsEmail(Get(data, "email")))
            ==> r == Err("Correo electrónico inválido")
    ensures (Truthy(data) && TypeOf(data) == "object" && IsEmail(Get(data, "email"))
             && !IsNotEmpty(Get(data, "password")))
            ==> r == Err("Contraseña requerida")
  {
    if !Truthy(data) || TypeOf(data) != "object" then Err("Datos inválidos")
    else if !IsEmail(Get(data, "email")) then Err("Correo electrónico inválido")
    else if !IsNotEmpty(Get(data, "password")) then Err("Contraseña requerida")
    else Ok(true)
  }

  /** Accepted login data is a plain object, with a string e-mail holding '@' and '.'. */
  lemma AcceptedLoginData(data: Value)
    requires ValidateLoginData(data).Ok?
    ensures data.Obj?
    ensures var e := Get(data, "email"); e.Str? && '@' in e.s && '.' in e.s
  {
  }
}
